=== FILE: README.md ===
# go-script rule language, modelled in Dafny

go-script evaluates small prefix-notation rules such as
`(if (== sale.Shop.ShopID 2.3) 5 0)` against a map of named numbers. This
project models its three pieces of sequential logic:

- **The rule parser** (`Binary.Parse` with the operator table `op`, and the
  entry point `Eval`). It reads an operator token, resolving the two-character
  spellings with a one-character peek. It then reads operands until `)`.
  Identifier fragments and dots are buffered and only become a variable
  operand when a numeric literal or `)` arrives. Modules `Tokens`, `Ast`,
  `Parser`, `ParserFacts`.
- **The integer and boolean projections** (`ToInt`, `ToInt64`, `ToBool` of
  `Binary`, `Atom` and `Var`). Every `panic` becomes an error value of type
  `Fault`. Go's 64-bit `int` arithmetic is written out: it wraps around, and
  division truncates toward zero. Modules `GoInt`, `Values`, `Evaluator`,
  `EvaluatorFacts`.
- **Environment flattening** (`Env` / `env`). A Go value, given as a
  datatype classified by reflect kind, is flattened into a map keyed by
  dotted paths. In the map itself the scalars mean exactly the Go types
  `int`, `int64` and `float64`.
  Modules `Environment`, `EnvironmentFacts`.

`Examples` replays the demo program's arithmetic rule (value 18 with
`id = 10`). It also replays the test file's unterminated rule, which
evaluates to 0 against the environment that `Env` builds from the test's
`Sale` value.

Tokens come from `text/scanner`, which the model does not include. A rule is
therefore a sequence of `Lexeme`s. Each lexeme holds a token and the raw
character the scanner's `Peek` returns after it. End of input is sticky: the
parser keeps reading `EOF` once the stream is exhausted. The float side of the
library (`ToFloat`, `strconv.ParseFloat`) is a parameter `Floats` of the
evaluator. So comparisons, `in` and the truth of arithmetic nodes are stated in
terms of whatever float projection is supplied.

In these places the code's behaviour may be surprising; the model follows
the code:

- An unterminated group is not an error. At end of input the parser returns
  the node built so far, and drops a pending variable name.
- `=`, `!`, `&` or `|` without its partner character is not a parse error. The
  operator is left empty, and every projection of that node then fails with
  `InvalidMethod`.
- A comparison, `and`, `or` or `in` node under `ToInt`/`ToInt64` does not
  yield 1 or 0. It fails with `InvalidMethod`.
- `if` with two operands fails only when its condition is false. The absent
  third operand is never read otherwise.
- A nil pointer, at the top level or in a struct field, is not skipped. It
  makes `env` dereference nil (`NilDereference`).

## Model

| member | source | states |
|---|---|---|
| Tokens.TokenText | ast.go:344 | The text the parser switches on and stores: `(`, `)` and `.` spell themselves, and the end of input spells nothing. |
| Tokens.Next | ast.go:386 | `Scan` reports the end of input exactly when the stream is exhausted or at an EOF lexeme, and then consumes nothing. Otherwise it yields the first lexeme and consumes exactly that one. |
| Ast.OperatorTable | ast.go:19-36 | Neither the empty operator nor a lone `=`, `!`, `&`, `\|` is a spelling of the operator table. |
| Parser.ResolveOp | ast.go:344-384 | Resolution fails exactly when the text is neither one of the 16 table spellings nor a lone `=`, `!`, `&`, `\|`. It pairs with the peeked character exactly when the two form a table spelling. Otherwise the operator is the text if it is in the table, and empty if not. |
| Parser.PairedSpellings | ast.go:344-378 | Of the accepted one-character operators, exactly `>=`, `<=`, `==`, `!=`, `&&`, `\|\|` are completed by their peeked character. |
| Parser.Flush | ast.go:392-410 | Emitting the buffer keeps every operand already read, in order. It adds exactly one operand, the variable named by the buffer, when the buffer is non-empty, and nothing otherwise. |
| Parser.ParseGroup | ast.go:341-384 | A successful group parse consumes at least the operator token. |
| Parser.ParseOperands | ast.go:386-417 | The operand loop never consumes more than its input. It returns a `Binary` node carrying the resolved operator, whose operands extend the operands already read. |
| Parser.BuildingLiteral | ast.go:392-403 | Emitting the pending variable and then a literal keeps every operand placed as the parser places it. |
| Parser.BuildingGroup | ast.go:388-391 | Appending a nested group of parser shape keeps the operands in parser shape. |
| Parser.BuildingClose | ast.go:406-410 | Closing the group, with or without a pending variable, yields a `Printable` tree. |
| Parser.GroupBuilds | ast.go:341-418 | Every tree `Binary.Parse` returns is `Printable`: table or empty operator, each variable last or directly before a literal, nested groups alike. |
| Parser.OperandsBuild | ast.go:386-417 | The operand loop keeps that shape invariant, from any state it can be in, to the node it returns. |
| Parser.Eval | eval.go:10-18 | `Eval` returns a `Printable` tree, so always a `Binary` node. |
| ParserFacts.ComparisonSpelling | ast.go:345-358 | `>`/`<` with a peeked `=` become `>=`/`<=` and skip the next token. Otherwise they stand alone and the next token is the first operand. |
| ParserFacts.LoneSymbolLeavesOperatorEmpty | ast.go:359-378 | `=`, `!`, `&`, `\|` without their partner give the empty operator and read on without skipping a token. |
| ParserFacts.UnknownOperatorFaults | ast.go:379-383 | Any other operator text outside the table fails with `InvalidMethod`. |
| ParserFacts.IdentifiersAccumulate | ast.go:404-412 | A run of identifier fragments and dots emits no operand and only appends its text to the buffer. |
| ParserFacts.AdjacentIdentifiersMerge | ast.go:398-405 | Two adjacent identifiers followed by an integer become one variable with the concatenated name, followed by the literal. |
| ParserFacts.NestedGroupOvertakesPendingVar | ast.go:388-405 | A nested group does not flush the buffer: the pending variable lands after the group, in front of the next literal. |
| ParserFacts.CloseFlushesPendingVar | ast.go:406-410 | `)` appends the pending name, if any, as the last operand and returns the node with the tokens after it. |
| ParserFacts.EndOfInputDropsPendingVar | ast.go:386-417 | At end of input the node is returned without its pending name, with no error. |
| ParserFacts.StrayTokenFaults | ast.go:413-415 | Any other token fails with `UnexpectedToken`, whatever was read before. |
| ParserFacts.EvalSkipsOneToken | eval.go:13-17 | `Eval` discards exactly one token, of any kind but EOF, and its result is that of parsing a group from the next token. |
| ParserFacts.NameLexemesSpell | ast.go:404-412 | The fragments and dots a dotted name scans to spell that name back in the buffer. |
| ParserFacts.OpLexemesResolve | ast.go:344-384 | Every table spelling and the empty operator, written as the scanner delivers it, resolves back to itself. |
| ParserFacts.AtomStep | ast.go:392-403 | A rendered literal operand is read as that operand. |
| ParserFacts.GroupStep | ast.go:388-391 | A rendered nested group is read as that operand. |
| ParserFacts.VarBuffered | ast.go:404-412 | A rendered variable only fills the buffer with its name. |
| ParserFacts.VarStep | ast.go:392-410 | A buffered variable is emitted by the following literal or by the closing `)`. |
| ParserFacts.CloseStep | ast.go:406-410 | The rendered `)` ends the group with exactly the rendered operands. |
| ParserFacts.RenderFromParses | ast.go:386-417 | From any operand position, the operand loop reads the rendered remaining operands back exactly. |
| ParserFacts.RenderParses | ast.go:341-418 | Every `Printable` tree is parsed back from its rendering, whatever follows. |
| ParserFacts.EvalReadsRendering | eval.go:10-18 | After any first token, `Eval` returns any `Printable` tree from its rendering. With `Eval`'s own postcondition: `Eval`'s possible results are exactly the `Printable` trees. |
| GoInt.Wrap | ast.go:50-73 | 64-bit wrap-around: in range, congruent to the mathematical value modulo 2^64, and the identity on in-range values. |
| GoInt.WrapAdd | ast.go:50-61 | Wrapping an intermediate sum does not change the wrapped total. |
| GoInt.WrapMul | ast.go:62-67 | Wrapping an intermediate product does not change the wrapped total. |
| GoInt.Quot | ast.go:68-73 | Go's integer quotient: the remainder is smaller than the divisor in magnitude and has the dividend's sign. |
| GoInt.DivStep | ast.go:68-73 | `res /= x` fails exactly on a zero divisor, and otherwise is the truncated quotient whenever that fits. |
| GoInt.FloatToInt | ast.go:218-223 | `int(f)` truncates toward zero: the result is the integer between zero and `f` less than 1 away from `f`. The only failure is `FloatOverflow`. |
| GoInt.ParseDecimal | ast.go:210-217 | `Atoi` fails only with `InvalidLiteral`, and what it accepts is a non-empty text read as a 64-bit value. |
| GoInt.DecimalShape | ast.go:210-217 | An accepted text is an optional `+` or `-` followed by digits only. |
| GoInt.DecimalValue | ast.go:210-235 | A run of digits reads as the number it writes, and a leading `-` negates it, whenever the result fits in 64 bits. When it does not fit, the text is rejected with `InvalidLiteral`. |
| GoInt.ParseShowDecimal | ast.go:210-217 | `Atoi` reads back the decimal text of every 64-bit value. |
| Evaluator.Step | ast.go:50-73 | One fold step is always in range, and fails exactly on division by zero. |
| Evaluator.AtomInt | ast.go:210-244 | A literal's integer value is a 64-bit value. |
| Evaluator.VarInt | ast.go:289-310 | A variable fails with `InvalidEnv` exactly when it is unbound or not int/int64/float64. An int or int64 value is returned unchanged. A float64 value is truncated toward zero by the conversion `FloatToInt` states, so it fails with `FloatOverflow` out of range. |
| Evaluator.VarBool | ast.go:325-334 | A variable's truth fails exactly when it is unbound or not int/int64/float64, and then with `InvalidEnv`. |
| Evaluator.Integer | ast.go:48-115 | `ToInt`/`ToInt64` of any node is a 64-bit value or a fault. |
| Evaluator.Compare | ast.go:155-168 | Which comparison holds depends only on whether the first value is below, equal to or above the second: `<`, `<=`, `!=` below; `>=`, `<=`, `==` equal; `>`, `>=`, `!=` above. |
| Evaluator.Bool | ast.go:153-197 | `ToBool` of an operator outside the table fails with `InvalidMethod`. `ToBool` of an integer literal fails exactly when `Atoi` rejects its text. A float literal fails exactly when its text does not parse. A variable fails exactly when it is unbound or not int/int64/float64. |
| Evaluator.All | ast.go:174-180 | The `and` loop is false only if some remaining operand is false. |
| Evaluator.Any | ast.go:181-187 | The `or` loop is true only if some remaining operand is true. |
| Evaluator.Member | ast.go:188-195 | The `in` loop is true only if some remaining operand's float projection equals `x`. It fails only if some remaining operand's float projection fails. |
| Evaluator.FoldInt | ast.go:50-73 | The fold loop's result is a 64-bit value. |
| EvaluatorFacts.ArithmeticFold | ast.go:50-67 | With operand values `vs`, the `+`/`-`/`*` loop from `acc` yields the wrapped `acc + Σvs`, `acc − Σvs`, `acc · Πvs`. |
| EvaluatorFacts.AddIsSum | ast.go:50-55 | `+` is the wrapped sum of its operand values, so 0 for no operands. |
| EvaluatorFacts.MulIsProduct | ast.go:62-67 | `*` is the wrapped product of its operand values, so 1 for no operands. |
| EvaluatorFacts.SubIsFirstMinusRest | ast.go:56-61 | `-` is the first value minus the sum of the others, wrapped. |
| EvaluatorFacts.LeftFoldsNeedAnOperand | ast.go:56-73 | `-` and `/` without operands fail with `IndexOutOfRange`. |
| EvaluatorFacts.DivIsTruncatedQuotient | ast.go:68-73 | `(/ a b)` is the truncated quotient of the two values. |
| EvaluatorFacts.DivFold | ast.go:68-73 | With non-zero operand values `vs`, the `/` loop from `acc` divides by each value in turn, truncating and wrapping each quotient (`QuotFold`). |
| EvaluatorFacts.DivIsQuotFold | ast.go:68-73 | `/` with non-zero divisors divides `Args[0]` by each later operand left to right: `(/ a)` is `a`, `(/ a b c)` is `(a / b) / c`. |
| EvaluatorFacts.MostNegativeOverMinusOneWraps | ast.go:68-73 | The most negative 64-bit value divided by -1 does not fit, and wraps back to itself. |
| EvaluatorFacts.DivFoldFaults | ast.go:68-73 | The `/` loop fails with `DivideByZero` when any remaining operand is 0. |
| EvaluatorFacts.DivisionByZeroFaults | ast.go:68-73 | `/` fails with `DivideByZero` when any operand after the first is 0. |
| EvaluatorFacts.FoldPropagates | ast.go:50-73 | A fold stops at its first faulting operand, and that fault is its result. For `/` the divisors before it must be non-zero. |
| EvaluatorFacts.ArithmeticFaultPropagates | ast.go:50-73 | `+ - * /` under `ToInt` fail with the fault of their first faulting operand (for `/`, when no earlier divisor is 0). |
| EvaluatorFacts.IfEvaluatesOneArm | ast.go:169-173 | `if` projects only the arm its condition selects, under `ToInt` and `ToBool` alike. The other arm is never evaluated. |
| EvaluatorFacts.IfNeedsOnlyTheTakenArm | ast.go:169-173 | A two-operand `if` yields its arm when true, and fails with `IndexOutOfRange` only when false, under `ToBool` and likewise under `ToInt` (ast.go lines 74-78). |
| EvaluatorFacts.ArityFaults | ast.go:153-197 | A comparison with fewer than two operands, and `in` or `if` with none, fail with `IndexOutOfRange` under `ToBool`, as does `if` with none under `ToInt` (ast.go lines 74-78); a lone comparison operand's own fault comes first. |
| EvaluatorFacts.IntegerRejectsOtherOperators | ast.go:48-80 | Under `ToInt`/`ToInt64`, every operator but `+ - * / if` fails with `InvalidMethod`, including comparisons, the logical operators and the empty operator. |
| EvaluatorFacts.BoolRejectsUnknownOperators | ast.go:153-197 | Under `ToBool`, an operator outside the table (such as the empty one) fails with `InvalidMethod`. |
| EvaluatorFacts.AllMeaning | ast.go:174-180 | The `and` loop is true exactly when every remaining operand is true. |
| EvaluatorFacts.AllStops | ast.go:174-180 | The `and` loop is false at the first false operand, whatever follows. |
| EvaluatorFacts.AnyMeaning | ast.go:181-187 | The `or` loop is false exactly when every remaining operand is false. |
| EvaluatorFacts.AnyStops | ast.go:181-187 | The `or` loop is true at the first true operand, whatever follows. |
| EvaluatorFacts.AllPropagates | ast.go:174-180 | The `and` loop fails with the fault of an operand reached after only true ones. |
| EvaluatorFacts.AnyPropagates | ast.go:181-187 | The `or` loop fails with the fault of an operand reached after only false ones. |
| EvaluatorFacts.LogicalFaultPropagates | ast.go:174-187 | `and`/`&&` fail with the fault of an operand reached after only true ones; `or`/`\|\|` after only false ones. |
| EvaluatorFacts.AndMeaning | ast.go:174-180 | `and`/`&&` is true exactly when all operands are (vacuously for none), and false at the first false one. |
| EvaluatorFacts.OrMeaning | ast.go:181-187 | `or`/`\|\|` is false exactly when all operands are (vacuously for none), and true at the first true one. |
| EvaluatorFacts.MemberMeaning | ast.go:188-195 | The `in` loop is true exactly when some remaining operand's float projection equals `x`. |
| EvaluatorFacts.InMeaning | ast.go:188-195 | `in` is true exactly when the first operand's float projection equals a later operand's. |
| EvaluatorFacts.MemberPropagates | ast.go:188-195 | The `in` loop fails with the fault of the first operand whose float projection fails, if no earlier operand matched. |
| EvaluatorFacts.InFaultPropagates | ast.go:188-195 | `in` fails with the fault of the first operand, `Args[0]` included, whose float projection fails, if no earlier operand matched `Args[0]`. |
| EvaluatorFacts.ComparisonReadsTwoFloats | ast.go:155-168 | A comparison compares the float projections of operands 0 and 1, and ignores any further operands. |
| EvaluatorFacts.ArithmeticTruthIsNonZero | ast.go:163-164 | Arithmetic under `ToBool` is "float projection ≠ 0", and propagates that projection's fault. |
| EvaluatorFacts.IntLiteralValue | ast.go:210-217 | The integer literal written as `n` has value `n` and truth `n ≠ 0`. |
| EvaluatorFacts.FloatLiteralValue | ast.go:218-223 | A float literal's integer value is its parsed value truncated toward zero, defined whenever it fits in 64 bits. Its truth is "≠ 0" on the untruncated value. |
| EvaluatorFacts.VarTruthInOwnKind | ast.go:325-334 | A variable's truth is "≠ 0" in its own kind: an integer agrees with its integer projection, a float is not truncated. |
| EvaluatorFacts.HalfIsTrueButProjectsToZero | ast.go:325-334 | A float64 0.5 is true under `ToBool` but 0 under `ToInt`. |
| Environment.Flatten | eval.go:32-60 | Keys lie under the prefix and values are scalars. A scalar is stored under the prefix itself. Flattening fails, with `NilDereference`, exactly when a struct reaches a nil pointer. |
| Environment.FlattenField | eval.go:44-57 | One field's entries lie under its path and are scalars. The field fails exactly when the reference definition `Faults` says so. |
| Environment.FlattenFields | eval.go:41-58 | The field loop fails exactly when some remaining field faults, and otherwise writes only well-formed entries. |
| Environment.Env | eval.go:20-30 | Every key is the receiver or starts with `receiver.`, and every value is int, int64 or float64. `Env` fails exactly when the value faults. |
| EnvironmentFacts.ScalarReceiver | eval.go:20-40 | A scalar, or a pointer to one, is stored under the receiver name with its kind kept. |
| EnvironmentFacts.OnePointerFollowed | eval.go:24-25 | Only one pointer is followed: a pointer to a pointer yields no key, at the top level and in a field. |
| EnvironmentFacts.OtherKindsAddNothing | eval.go:32-59 | A value of an unsupported kind adds no key, at the top level, behind the receiver pointer and as a field. |
| EnvironmentFacts.FieldPathsDisjoint | eval.go:48-56 | Two distinct dot-free field names have disjoint key ranges. |
| EnvironmentFacts.KeysFromFields | eval.go:41-58 | Every key of a struct's map comes from one of its fields. |
| EnvironmentFacts.FieldEntrySurvives | eval.go:41-58 | With distinct field names, no later field overwrites an entry an earlier field wrote. |
| EnvironmentFacts.BlankFieldsCollide | eval.go:41-58 | Two blank `_` fields write the same key `s._`, and the later value wins. |
| EnvironmentFacts.StructIsUnionOfFields | eval.go:41-58 | A struct's map holds exactly the entries of its fields' maps, each with its field's value. |
| EnvironmentFacts.ScalarFieldStored | eval.go:47-56 | A scalar field, or a pointer field to a scalar, is stored under `prefix.Name` with its kind kept. |
| EnvironmentFacts.EnvironmentIsReadable | eval.go:35-52 | Every key `Env` produces can be read by a `Var`: its truth is defined, and its integer projection is not `InvalidEnv`. |
| Examples.ArithmeticRuleEvaluates | demo/main.go:24-27 | `(+  (- id 1) 2 (+ 3 4))` parses to the expected tree, `Env(10, "id")` is `{"id": 10}`, and the rule's value is 18. |
| Examples.SaleEnvironment | eval_test.go:14-19 | `Env(&sale, "sale")` on the test's `Sale{1, 2.2, &Shop{3}}` is exactly the map the test file writes by hand. |
| Examples.ShopRuleEvaluates | eval_test.go:26-36 | The unterminated test rule parses to its full tree. With a float projection that reads the shop id as 3.0 and the literal as 2.3, it evaluates to 0 on that environment. |
| Examples.PriceRuleParses | demo/main.go:35-36 | `(if (>= sale.SaleID 1) 10.1 0)` parses with `>=` read from two tokens. |
| Examples.AndShortCircuits | ast.go:174-180 | `(and 0 missing)` is false although `missing` alone fails, because the loop stops before it. |

## Left out

- Character-level lexing by `text/scanner` (eval.go:11-13): the model starts
  from a lexeme sequence that records each token's following raw character.
  The scanner's own error reporting is not modelled. The scanner mode
  (eval.go:13: floats, characters and identifiers, comments off) never yields
  a signed number or a comment: `-` is a token of its own, so `(- 0 1)` is how
  a rule writes -1, and `//` is two `/` tokens. The model's tokens follow the
  same convention.
- `ToFloat` (ast.go:118-151, 247-262, 313-322) and IEEE-754 arithmetic: float
  parsing and the float projection are the parameter `Floats`. float64 values
  in the environment are exact reals, so rounding and NaN are not modelled.
- Evaluator.AtomInt: states only that the value is a 64-bit value. Its exact
  values are stated separately by `IntLiteralValue` and `FloatLiteralValue`.
- Evaluator.FoldInt: states only the range of the result. Its meaning is
  stated by `ArithmeticFold`, `DivFold`, `DivFoldFaults`, `FoldPropagates`
  and the operator lemmas.
- Evaluator.Integer: the model assumes a 64-bit platform, where `int` and
  `int64` have the same width, so `ToInt` and `ToInt64` are one function. On
  32-bit ports `ToInt` wraps at 32 bits and differs from `ToInt64`, and
  `Atoi` rejects literals above 2^31-1; that is not modelled.
- GoInt.FloatToInt: Go leaves an out-of-range float-to-integer conversion to
  the implementation. The model reports `FloatOverflow` instead of choosing a
  value.
- Panic message texts and the debug `fmt.Println` at ast.go:414: every panic
  is one `Fault` value without a message.
- The trivial `Eval()` methods (ast.go:44-46, 206-208, 337-339) and the unused
  `Var.Val` field.
- The final `panic` of the `Atom` projections for a token kind other than Int
  or Float (ast.go:225, 244, 280). The parser never builds such an atom.
- The unspecified part of Go's evaluation order. Go evaluates the calls in
  one expression left to right, and the model does the same. Go does not fix
  when an index such as `Args[1]` is checked relative to the call on
  `Args[0]`. The model checks it after that call, so a lone comparison
  operand's own fault is reported before the missing second operand.
- `reflect` itself. Go values are a datatype: classified by kind as input
  to `Env`, and by exact dynamic type inside a rule's environment map, where
  a named scalar type such as `time.Duration` is `OtherV` and reading it
  faults with `InvalidEnv` as the type switch panics. These are not
  modelled: a nil interface passed to `Env`, unexported-field access rules,
  and kinds such as `int32` (they fall into "other kind" and add no key).
- Cyclic values. `env` follows pointer fields without a visited set, so a
  struct that reaches itself through pointers recurses until the stack
  overflows. A `GoValue` is a finite tree and cannot express such a cycle.
- The struct lemmas assume distinct, dot-free field names. Go guarantees
  this for non-blank names only: repeated `_` fields are legal. `Flatten`
  still models the source for them: the later field's entry replaces the
  earlier one (`BlankFieldsCollide`).

=== FILE: ast.dfy ===
/** The lexical tokens the rule parser consumes. Character-level lexing is
    done by Go's `text/scanner`; the model starts from the tokens it yields. */
module Tokens {
  import opened Wrappers

  /** The token classes the parser distinguishes. `Other` is any other
      token (a one-character symbol such as `+`, `>` or `=`, or a character
      literal such as `'a'`), carrying its text. */
  datatype Token =
    | LParen
    | RParen
    | Int(text: string)
    | Float(text: string)
    | Ident(text: string)
    | Dot
    | Other(text: string)
    | EOF

  /** A token together with the raw character that immediately follows it in
      the rule text, which is what `scanner.Peek` reports right after the
      token was scanned (`None` at the end of the text). */
  datatype Lexeme = Lexeme(token: Token, follow: Option<char>)

  /** `scanner.TokenText` of a token: a punctuation token spells its one
      character, the end of input spells nothing. */
  function TokenText(t: Token): (r: string)
    ensures t.LParen? ==> r == "("
    ensures t.RParen? ==> r == ")"
    ensures t.Dot? ==> r == "."
    ensures t.EOF? ==> r == ""
  {
    match t
    case LParen => "("
    case RParen => ")"
    case Int(s) => s
    case Float(s) => s
    case Ident(s) => s
    case Dot => "."
    case Other(s) => s
    case EOF => ""
  }

  /** `scanner.Scan`: the next lexeme and the stream after it. Once the end
      of input is reached the scanner keeps reporting EOF, so neither an empty
      stream nor an EOF lexeme is ever consumed. */
  function Next(ts: seq<Lexeme>): (r: (Lexeme, seq<Lexeme>))
    ensures r.0.token == EOF <==> |ts| == 0 || ts[0].token == EOF
    ensures r.0.token == EOF ==> r.1 == ts
    ensures r.0.token != EOF ==> |ts| > 0 && r.0 == ts[0] && r.1 == ts[1..]
  {
    if |ts| == 0 || ts[0].token == EOF then (Lexeme(EOF, None), ts) else (ts[0], ts[1..])
  }
}

/** The syntax tree of a rule: `Binary`, `Atom` and `Var` nodes. */
module Ast {

  /** Which scanner class an atom's text came from. */
  datatype LitKind = IntLit | FloatLit

  /** An expression node. `Binary.op` keeps the operator spelling as the
      parser stored it, which may be the empty string; `Atom.text` keeps the
      literal's text unparsed; `Var.name` is a dotted path resolved only when
      the rule is evaluated. */
  datatype Expr =
    | Binary(op: string, args: seq<Expr>)
    | Atom(kind: LitKind, text: string)
    | Var(name: string)

  /** The operator table: the sixteen spellings the parser accepts. */
  const Operators: set<string> :=
    {"+", "-", "*", "/", ">", ">=", "<", "<=", "==", "!=", "&&", "and", "or", "||", "if", "in"}

  /** Neither the empty operator nor a lone `=`, `!`, `&` or `|` is a table
      spelling. */
  lemma OperatorTable()
    ensures "" !in Operators
    ensures forall s :: s in {"=", "!", "&", "|"} ==> s !in Operators
  {
  }

  /** The operand `args[i]` sits where the parser can put it: a variable has
      a non-empty name and is either the last operand or directly followed by
      a literal, the only two events that emit a pending variable. */
  predicate VarPlaced(args: seq<Expr>, i: int)
    requires 0 <= i < |args|
  {
    args[i].Var? ==> args[i].name != "" && (i + 1 == |args| || args[i + 1].Atom?)
  }

  /** The trees the parser builds: operator nodes whose operator is a table
      spelling or empty, whose variables are placed as `VarPlaced` says, and
      whose nested operands are such trees again. */
  predicate Printable(e: Expr) {
    match e
    case Binary(op, args) =>
      && (op in Operators || op == "")
      && forall i :: 0 <= i < |args| ==> VarPlaced(args, i) && (args[i].Binary? ==> Printable(args[i]))
    case _ => false
  }
}

=== FILE: environment.dfy ===
/** `Env` and `env` in eval.go: flattening a Go value into the variable map a
    rule is evaluated against. Scalars are stored under their dotted path,
    structs are walked field by field, a pointer field is followed once, and
    every other kind contributes nothing. */
module Environment {
  import opened Wrappers
  import opened Values

  /** `k` is the path `prefix` itself or a dotted path below it. */
  predicate Under(prefix: string, k: string) {
    k == prefix || prefix + "." <= k
  }

  /** The path of field `name` below `prefix` (`fmt.Sprintf("%s.%s", ...)`). */
  function FieldPath(prefix: string, name: string): string {
    prefix + "." + name
  }

  /** A map every key of which lies under `prefix` and every value of which
      is a scalar the evaluator can read. */
  predicate WellFormed(m: EnvMap, prefix: string) {
    forall k :: k in m ==> Under(prefix, k) && IsScalar(m[k])
  }

  /** Reference definition of the panics: flattening `w` in field position
      dereferences nil when `w` is a nil pointer, or a struct (possibly behind
      one pointer) one of whose fields does. */
  predicate Faults(w: GoValue)
    decreases w, 1
  {
    match w
    case NilPtrV => true
    case StructV(_) => FieldFaults(w)
    case PtrV(t) => t.StructV? && FieldFaults(t)
    case _ => false
  }

  predicate FieldFaults(v: GoValue)
    requires v.StructV?
    decreases v, 0
  {
    exists i :: 0 <= i < |v.fields| && Faults(v.fields[i].value)
  }

  /** `env(m, prefix, value)`, as the entries it writes into `m`. */
  function Flatten(prefix: string, v: GoValue): (r: Result<EnvMap>)
    ensures r.Ok? ==> WellFormed(r.value, prefix)
    ensures r.Err? ==> r.fault == NilDereference
    ensures IsScalar(v) ==> r == Ok(map[prefix := v])
    ensures r.Err? <==> v.StructV? && FieldFaults(v)
    decreases v, 2, 0
  {
    match v
    case IntV(_) => Ok(map[prefix := v])
    case Int64V(_) => Ok(map[prefix := v])
    case Float64V(_) => Ok(map[prefix := v])
    case StructV(_) => FlattenFields(prefix, v, 0)
    case _ => Ok(map[])
  }

  /** The body of the field loop for one field value `w` at `path`: scalars
      are stored, structs are walked, pointers are dereferenced (a nil one
      panics), other kinds are skipped. */
  function FlattenField(path: string, w: GoValue): (r: Result<EnvMap>)
    ensures r.Ok? ==> WellFormed(r.value, path)
    ensures r.Err? ==> r.fault == NilDereference
    ensures r.Err? <==> Faults(w)
    decreases w, 3, 0
  {
    match w
    case IntV(_) => Ok(map[path := w])
    case Int64V(_) => Ok(map[path := w])
    case Float64V(_) => Ok(map[path := w])
    case StructV(_) => Flatten(path, w)
    case PtrV(t) => Flatten(path, t)
    case NilPtrV => Err(NilDereference)
    case OtherV => Ok(map[])
  }

  /** The field loop from field `i` on. Fields are written in declaration
      order, so a later field's entry replaces an earlier one with the same
      key. */
  function FlattenFields(prefix: string, v: GoValue, i: nat): (r: Result<EnvMap>)
    requires v.StructV? && i <= |v.fields|
    ensures r.Ok? ==> WellFormed(r.value, prefix)
    ensures r.Err? ==> r.fault == NilDereference
    ensures r.Err? <==> exists j :: i <= j < |v.fields| && Faults(v.fields[j].value)
    decreases v, 1, |v.fields| - i
  {
    if i == |v.fields| then Ok(map[])
    else
      var f := v.fields[i];
      var here :- FlattenField(FieldPath(prefix, f.name), f.value);
      var later :- FlattenFields(prefix, v, i + 1);
      Ok(here + later)
  }

  /** `Env(i, receiver)`: a top-level pointer is dereferenced once (a nil one
      panics), then the value is flattened under the receiver name. */
  function Env(v: GoValue, receiver: string): (r: Result<EnvMap>)
    ensures r.Ok? ==> WellFormed(r.value, receiver)
    ensures r.Err? ==> r.fault == NilDereference
    ensures r.Err? <==> Faults(v)
  {
    match v
    case PtrV(t) => Flatten(receiver, t)
    case NilPtrV => Err(NilDereference)
    case _ => Flatten(receiver, v)
  }
}

=== FILE: environment_facts.dfy ===
/** Properties of the flattened environment: what a scalar or pointer
    receiver yields, that only one pointer is followed, and that a struct's
    map is exactly the union of its fields' entries, none overwritten, when
    field names are distinct, and that repeated blank fields collide. */
module EnvironmentFacts {
  import opened Wrappers
  import opened Values
  import opened Environment
  import opened Evaluator

  /** A scalar receiver, or a pointer to one, is stored under the receiver
      name itself. */
  lemma ScalarReceiver(v: GoValue, receiver: string)
    requires IsScalar(v)
    ensures Env(v, receiver) == Ok(map[receiver := v])
    ensures Env(PtrV(v), receiver) == Ok(map[receiver := v])
  {
  }

  /** Only one pointer is followed: a pointer to a pointer, nil or not,
      yields nothing, at the top level and in a field alike. */
  lemma OnePointerFollowed(t: GoValue, receiver: string, path: string)
    requires t.PtrV? || t.NilPtrV?
    ensures Env(PtrV(t), receiver) == Ok(map[])
    ensures FlattenField(path, PtrV(t)) == Ok(map[])
  {
  }

  /** Two blank fields write the same key, and the later one wins. */
  lemma BlankFieldsCollide()
    ensures Flatten("s", StructV([Field("_", IntV(1)), Field("_", IntV(2))])) == Ok(map["s._" := IntV(2)])
  {
    var v := StructV([Field("_", IntV(1)), Field("_", IntV(2))]);
    assert FieldPath("s", "_") == "s._";
    assert FlattenFields("s", v, 2) == Ok(map[]);
    assert FlattenField("s._", IntV(2)) == Ok(map["s._" := IntV(2)]);
    assert map["s._" := IntV(2)] + map[] == map["s._" := IntV(2)];
    assert FlattenFields("s", v, 1) == Ok(map["s._" := IntV(2)]);
    assert FlattenFields("s", v, 0) == Ok(map["s._" := IntV(1)] + map["s._" := IntV(2)]);
    assert map["s._" := IntV(1)] + map["s._" := IntV(2)] == map["s._" := IntV(2)];
  }

  /** A value of any kind but the three scalars, a struct or a pointer adds
      no key: at the top level, behind the receiver pointer, and as a field. */
  lemma OtherKindsAddNothing(receiver: string, path: string)
    ensures Env(OtherV, receiver) == Ok(map[])
    ensures Env(PtrV(OtherV), receiver) == Ok(map[])
    ensures FlattenField(path, OtherV) == Ok(map[])
    ensures FlattenField(path, PtrV(OtherV)) == Ok(map[])
  {
  }

  /** Field names that are distinct within a struct and free of dots. Go
      guarantees this for non-blank names; repeated `_` fields are the
      exception, and collide (`BlankFieldsCollide`). */
  predicate GoFieldNames(v: GoValue)
    requires v.StructV?
  {
    && (forall i, j :: 0 <= i < j < |v.fields| ==> v.fields[i].name != v.fields[j].name)
    && (forall i :: 0 <= i < |v.fields| ==> '.' !in v.fields[i].name)
  }

  /** The first segment of a dotted path. */
  function Segment(s: string): (r: string)
    ensures r <= s
  {
    if s == [] || s[0] == '.' then [] else [s[0]] + Segment(s[1..])
  }

  lemma {:induction false} SegmentOfPath(a: string, t: string)
    requires '.' !in a
    ensures Segment(a) == a
    ensures Segment(a + "." + t) == a
  {
    if a != [] {
      assert (a + "." + t)[1..] == a[1..] + "." + t;
      SegmentOfPath(a[1..], t);
    } else {
      assert (a + "." + t)[0] == '.';
    }
  }

  /** A key under field `a`'s path names `a` as its segment after the
      prefix. */
  lemma SegmentNamesField(prefix: string, a: string, k: string)
    requires '.' !in a && Under(FieldPath(prefix, a), k)
    ensures |prefix| < |k| && Segment(k[|prefix| + 1..]) == a
  {
    var p := FieldPath(prefix, a);
    if k == p {
      assert k[|prefix| + 1..] == a;
      SegmentOfPath(a, "");
    } else {
      var t := k[|p| + 1..];
      assert k == p + "." + t;
      assert k[|prefix| + 1..] == a + "." + t;
      SegmentOfPath(a, t);
    }
  }

  /** Keys under two dot-free field paths of the same prefix coincide only
      when the field names do. */
  lemma FieldPathsDisjoint(prefix: string, a: string, b: string, k: string)
    requires '.' !in a && '.' !in b && a != b
    ensures !(Under(FieldPath(prefix, a), k) && Under(FieldPath(prefix, b), k))
  {
    if Under(FieldPath(prefix, a), k) && Under(FieldPath(prefix, b), k) {
      SegmentNamesField(prefix, a, k);
      SegmentNamesField(prefix, b, k);
    }
  }

  /** Every key of the field loop's map comes from one of the fields it
      visited. */
  lemma {:induction false} KeysFromFields(prefix: string, v: GoValue, i: nat, k: string)
    requires v.StructV? && i <= |v.fields|
    requires FlattenFields(prefix, v, i).Ok? && k in FlattenFields(prefix, v, i).value
    ensures exists j ::
              i <= j < |v.fields| &&
              FlattenField(FieldPath(prefix, v.fields[j].name), v.fields[j].value).Ok? &&
              k in FlattenField(FieldPath(prefix, v.fields[j].name), v.fields[j].value).value
    decreases |v.fields| - i
  {
    var f := v.fields[i];
    var here := FlattenField(FieldPath(prefix, f.name), f.value);
    if k !in here.value {
      KeysFromFields(prefix, v, i + 1, k);
    }
  }

  /** Field `j`'s entries reach the field loop's map from any earlier start
      unchanged: earlier fields are overridden by them, later fields never
      write the same key. */
  lemma {:induction false} FieldEntrySurvives(prefix: string, v: GoValue, i: nat, j: nat, k: string)
    requires v.StructV? && GoFieldNames(v) && i <= j < |v.fields|
    requires FlattenFields(prefix, v, i).Ok?
    requires FlattenField(FieldPath(prefix, v.fields[j].name), v.fields[j].value).Ok?
    requires k in FlattenField(FieldPath(prefix, v.fields[j].name), v.fields[j].value).value
    ensures k in FlattenFields(prefix, v, i).value
    ensures FlattenFields(prefix, v, i).value[k]
         == FlattenField(FieldPath(prefix, v.fields[j].name), v.fields[j].value).value[k]
    decreases j - i
  {
    var later := FlattenFields(prefix, v, i + 1);
    if i < j {
      FieldEntrySurvives(prefix, v, i + 1, j, k);
    } else if k in later.value {
      KeysFromFields(prefix, v, i + 1, k);
      var m :| i + 1 <= m < |v.fields| &&
        FlattenField(FieldPath(prefix, v.fields[m].name), v.fields[m].value).Ok? &&
        k in FlattenField(FieldPath(prefix, v.fields[m].name), v.fields[m].value).value;
      FieldPathsDisjoint(prefix, v.fields[j].name, v.fields[m].name, k);
      assert false;
    }
  }

  /** A struct's flattened map is exactly the union of its fields' entries:
      each field's entries are present with their values, and there is no
      other key. */
  lemma StructIsUnionOfFields(prefix: string, v: GoValue, k: string)
    requires v.StructV? && GoFieldNames(v) && Flatten(prefix, v).Ok?
    ensures k in Flatten(prefix, v).value <==>
      exists j ::
        0 <= j < |v.fields| &&
        FlattenField(FieldPath(prefix, v.fields[j].name), v.fields[j].value).Ok? &&
        k in FlattenField(FieldPath(prefix, v.fields[j].name), v.fields[j].value).value
    ensures forall j ::
              (0 <= j < |v.fields| &&
               FlattenField(FieldPath(prefix, v.fields[j].name), v.fields[j].value).Ok? &&
               k in FlattenField(FieldPath(prefix, v.fields[j].name), v.fields[j].value).value)
              ==> (k in Flatten(prefix, v).value &&
                   Flatten(prefix, v).value[k] == FlattenField(FieldPath(prefix, v.fields[j].name), v.fields[j].value).value[k])
  {
    if k in Flatten(prefix, v).value {
      KeysFromFields(prefix, v, 0, k);
    }
    forall j | 0 <= j < |v.fields| &&
        FlattenField(FieldPath(prefix, v.fields[j].name), v.fields[j].value).Ok? &&
        k in FlattenField(FieldPath(prefix, v.fields[j].name), v.fields[j].value).value
      ensures k in Flatten(prefix, v).value &&
        Flatten(prefix, v).value[k] == FlattenField(FieldPath(prefix, v.fields[j].name), v.fields[j].value).value[k]
    {
      FieldEntrySurvives(prefix, v, 0, j, k);
    }
  }

  /** A scalar field, or a pointer field to a scalar, is stored at
      `prefix.Name`. */
  lemma ScalarFieldStored(prefix: string, v: GoValue, j: nat)
    requires v.StructV? && GoFieldNames(v) && j < |v.fields| && Flatten(prefix, v).Ok?
    ensures IsScalar(v.fields[j].value) ==>
      var m := Flatten(prefix, v).value;
      FieldPath(prefix, v.fields[j].name) in m && m[FieldPath(prefix, v.fields[j].name)] == v.fields[j].value
    ensures v.fields[j].value.PtrV? && IsScalar(v.fields[j].value.target) ==>
      var m := Flatten(prefix, v).value;
      FieldPath(prefix, v.fields[j].name) in m && m[FieldPath(prefix, v.fields[j].name)] == v.fields[j].value.target
  {
    var w := v.fields[j].value;
    var path := FieldPath(prefix, v.fields[j].name);
    if IsScalar(w) || (w.PtrV? && IsScalar(w.target)) {
      FieldEntrySurvives(prefix, v, 0, j, path);
    }
  }

  /** Every variable the environment defines is readable by `Var.ToBool` and
      does not make `Var.ToInt` report a bad environment. */
  lemma EnvironmentIsReadable(v: GoValue, receiver: string, k: string)
    requires Env(v, receiver).Ok? && k in Env(v, receiver).value
    ensures VarBool(k, Env(v, receiver).value).Ok?
    ensures VarInt(k, Env(v, receiver).value) != Err(InvalidEnv)
  {
  }
}

=== FILE: evaluator.dfy ===
/** Go values as the evaluator and the environment flattener see them. */
module Values {
  import opened GoInt

  /** A Go value: `int`, `int64` and `float64` scalars, a struct with its
      fields in declaration order, a non-nil or nil pointer, and anything
      else. As input to `Env` a value is classified by reflect kind, so a
      named type such as `time.Duration` is `Int64V` there (`env` converts it
      to a plain `int64`). Integers are 64 bits wide; float64 values are
      carried as exact reals. */
  datatype GoValue =
    | IntV(n: Int64)
    | Int64V(n: Int64)
    | Float64V(f: real)
    | StructV(fields: seq<Field>)
    | PtrV(target: GoValue)
    | NilPtrV
    | OtherV

  datatype Field = Field(name: string, value: GoValue)

  /** The three kinds a variable reference can read. */
  predicate IsScalar(v: GoValue) {
    v.IntV? || v.Int64V? || v.Float64V?
  }

  /** The `map[string]interface{}` a rule is evaluated against. Here the
      scalars stand for exactly the dynamic types `int`, `int64` and
      `float64`, which is what the type switches of `Var` match; a value of
      any other type, a named scalar type included, is `OtherV`. */
  type EnvMap = map<string, GoValue>
}

/** The integer and boolean projections of a rule (`ToInt`, `ToInt64`,
    `ToBool` of `Binary`, `Atom` and `Var`). Every `panic` of the library is a
    `Fault`. */
module Evaluator {
  import opened Wrappers
  import opened GoInt
  import opened Ast
  import opened Values

  /** The float64 side of the library, which the model leaves abstract:
      `parse` stands for `strconv.ParseFloat(text, 64)` and `project` for the
      `ToFloat` projection of a node under the environment at hand. */
  datatype Floats = Floats(parse: string -> Option<real>, project: Expr -> Result<real>)

  /** The four arithmetic operators. */
  datatype Arith = Add | Sub | Mul | Div

  /** One step `res op= x` of a fold in 64-bit arithmetic. */
  function Step(k: Arith, acc: int, x: int): (r: Result<int>)
    ensures r.Ok? ==> InRange(r.value)
    ensures r.Err? <==> k == Div && x == 0
  {
    match k
    case Add => Ok(Wrap(acc + x))
    case Sub => Ok(Wrap(acc - x))
    case Mul => Ok(Wrap(acc * x))
    case Div => DivStep(acc, x)
  }

  /** `Atom.ToInt` / `Atom.ToInt64`: an integer literal is parsed by `Atoi`,
      a float literal is parsed as float64 and truncated toward zero. */
  function AtomInt(k: LitKind, text: string, fs: Floats): (r: Result<int>)
    ensures r.Ok? ==> InRange(r.value)
  {
    match k
    case IntLit => ParseDecimal(text)
    case FloatLit =>
      match fs.parse(text)
      case None => Err(InvalidLiteral)
      case Some(f) => FloatToInt(f)
  }

  /** `Var.ToInt` / `Var.ToInt64`: only an `int`, `int64` or `float64` value
      is accepted; integers keep their value (both are 64 bits wide), a float
      is truncated toward zero and may overflow. */
  function VarInt(name: string, env: EnvMap): (r: Result<int>)
    ensures r.Ok? ==> InRange(r.value)
    ensures r == Err(InvalidEnv) <==> name !in env || !IsScalar(env[name])
    ensures name in env && (env[name].IntV? || env[name].Int64V?) ==> r == Ok(env[name].n)
    ensures name in env && env[name].Float64V? ==> r == FloatToInt(env[name].f)
  {
    if name !in env then Err(InvalidEnv)
    else
      match env[name]
      case IntV(n) => Ok(n)
      case Int64V(n) => Ok(n)
      case Float64V(f) => FloatToInt(f)
      case _ => Err(InvalidEnv)
  }

  /** `Var.ToBool`: the value compared with zero in its own kind, so a float
      is not truncated first. */
  function VarBool(name: string, env: EnvMap): (r: Result<bool>)
    ensures r.Err? <==> name !in env || !IsScalar(env[name])
    ensures r.Err? ==> r.fault == InvalidEnv
  {
    if name !in env then Err(InvalidEnv)
    else
      match env[name]
      case IntV(n) => Ok(n != 0)
      case Int64V(n) => Ok(n != 0)
      case Float64V(f) => Ok(f != 0.0)
      case _ => Err(InvalidEnv)
  }

  /** `ToInt` / `ToInt64` of any node. `+` and `*` fold over all operands from
      0 and 1, `-` and `/` fold from the first operand, `if` evaluates its
      condition under `ToBool` and then one arm; every other operator faults.
      The result is always a 64-bit value. */
  function Integer(e: Expr, env: EnvMap, fs: Floats): (r: Result<int>)
    ensures r.Ok? ==> InRange(r.value)
    decreases e, 1, 0
  {
    match e
    case Atom(k, t) => AtomInt(k, t, fs)
    case Var(n) => VarInt(n, env)
    case Binary(op, args) =>
      if op == "+" then FoldInt(e, 0, 0, Add, env, fs)
      else if op == "*" then FoldInt(e, 0, 1, Mul, env, fs)
      else if op == "-" || op == "/" then
        if |args| == 0 then Err(IndexOutOfRange)
        else
          var first :- Integer(args[0], env, fs);
          FoldInt(e, 1, first, if op == "-" then Sub else Div, env, fs)
      else if op == "if" then
        if |args| == 0 then Err(IndexOutOfRange)
        else
          var c :- Bool(args[0], env, fs);
          var arm := if c then 1 else 2;
          if |args| <= arm then Err(IndexOutOfRange) else Integer(args[arm], env, fs)
      else Err(InvalidMethod)
  }

  /** The loop `for _, exp := range Args[i:] { res op= exp.ToInt(env) }`. */
  function FoldInt(e: Expr, i: nat, acc: int, k: Arith, env: EnvMap, fs: Floats): (r: Result<int>)
    requires e.Binary? && i <= |e.args| && InRange(acc)
    ensures r.Ok? ==> InRange(r.value)
    decreases e, 0, |e.args| - i
  {
    if i == |e.args| then Ok(acc)
    else
      var x :- Integer(e.args[i], env, fs);
      var acc' :- Step(k, acc, x);
      FoldInt(e, i + 1, acc', k, env, fs)
  }

  /** The six comparison spellings. */
  const Comparisons: set<string> := {">", ">=", "<", "<=", "==", "!="}

  /** A comparison of two float64 values; which spellings hold is fixed by
      whether `a` is below, equal to or above `b`. */
  function Compare(op: string, a: real, b: real): (r: bool)
    ensures op in Comparisons && a < b ==> (r <==> op in {"<", "<=", "!="})
    ensures op in Comparisons && a == b ==> (r <==> op in {">=", "<=", "=="})
    ensures op in Comparisons && a > b ==> (r <==> op in {">", ">=", "!="})
  {
    if op == ">" then a > b
    else if op == ">=" then a >= b
    else if op == "<" then a < b
    else if op == "<=" then a <= b
    else if op == "==" then a == b
    else a != b
  }

  /** `ToBool` of any node. Comparisons and `in` compare float projections;
      arithmetic tests its own float projection against zero; `and`, `or`
      and `if` evaluate operands under `ToBool`; every other operator faults. */
  function Bool(e: Expr, env: EnvMap, fs: Floats): (r: Result<bool>)
    ensures e.Binary? && e.op !in Operators ==> r == Err(InvalidMethod)
    ensures e.Atom? && e.kind == IntLit ==> (r.Err? <==> ParseDecimal(e.text).Err?)
    ensures e.Atom? && e.kind == FloatLit ==> (r.Err? <==> fs.parse(e.text).None?)
    ensures e.Var? ==> (r.Err? <==> e.name !in env || !IsScalar(env[e.name]))
    decreases e, 1, 0
  {
    match e
    case Atom(IntLit, t) =>
      var i :- ParseDecimal(t);
      Ok(i != 0)
    case Atom(FloatLit, t) =>
      (match fs.parse(t)
       case None => Err(InvalidLiteral)
       case Some(f) => Ok(f != 0.0))
    case Var(n) => VarBool(n, env)
    case Binary(op, args) =>
      if op in Comparisons then
        if |args| == 0 then Err(IndexOutOfRange)
        else
          var a :- fs.project(args[0]);
          if |args| == 1 then Err(IndexOutOfRange)
          else
            var b :- fs.project(args[1]);
            Ok(Compare(op, a, b))
      else if op in {"+", "-", "*", "/"} then
        var f :- fs.project(e);
        Ok(f != 0.0)
      else if op == "if" then
        if |args| == 0 then Err(IndexOutOfRange)
        else
          var c :- Bool(args[0], env, fs);
          var arm := if c then 1 else 2;
          if |args| <= arm then Err(IndexOutOfRange) else Bool(args[arm], env, fs)
      else if op == "and" || op == "&&" then All(e, 0, env, fs)
      else if op == "or" || op == "||" then Any(e, 0, env, fs)
      else if op == "in" then
        if |args| == 0 then Err(IndexOutOfRange)
        else
          var x :- fs.project(args[0]);
          Member(args, 1, x, fs)
      else Err(InvalidMethod)
  }

  /** The `and` loop over `Args[i:]`: false at the first false operand. */
  function All(e: Expr, i: nat, env: EnvMap, fs: Floats): (r: Result<bool>)
    requires e.Binary? && i <= |e.args|
    ensures r == Ok(false) ==> exists j :: i <= j < |e.args| && Bool(e.args[j], env, fs) == Ok(false)
    decreases e, 0, |e.args| - i
  {
    if i == |e.args| then Ok(true)
    else
      var b :- Bool(e.args[i], env, fs);
      if !b then Ok(false) else All(e, i + 1, env, fs)
  }

  /** The `or` loop over `Args[i:]`: true at the first true operand. */
  function Any(e: Expr, i: nat, env: EnvMap, fs: Floats): (r: Result<bool>)
    requires e.Binary? && i <= |e.args|
    ensures r == Ok(true) ==> exists j :: i <= j < |e.args| && Bool(e.args[j], env, fs) == Ok(true)
    decreases e, 0, |e.args| - i
  {
    if i == |e.args| then Ok(false)
    else
      var b :- Bool(e.args[i], env, fs);
      if b then Ok(true) else Any(e, i + 1, env, fs)
  }

  /** The `in` loop: true at the first operand in `args[i..]` whose float
      projection equals `x`. */
  function Member(args: seq<Expr>, i: nat, x: real, fs: Floats): (r: Result<bool>)
    requires i <= |args|
    ensures r == Ok(true) ==> exists j :: i <= j < |args| && fs.project(args[j]) == Ok(x)
    ensures r.Err? ==> exists j :: i <= j < |args| && fs.project(args[j]).Err?
    decreases |args| - i
  {
    if i == |args| then Ok(false)
    else
      var y :- fs.project(args[i]);
      if x == y then Ok(true) else Member(args, i + 1, x, fs)
  }
}

=== FILE: evaluator_facts.dfy ===
/** Properties of the integer and boolean projections: the folds against
    reference sums and products, the one-armed `if`, the operators each
    projection rejects, short-circuit `and` / `or`, `in` membership, and the
    leaf conversions. */
module EvaluatorFacts {
  import opened Wrappers
  import opened GoInt
  import opened Ast
  import opened Values
  import opened Evaluator

  /** Reference sum and product of a list of integers. */
  function Sum(vs: seq<int>): int {
    if vs == [] then 0 else vs[0] + Sum(vs[1..])
  }

  function Product(vs: seq<int>): int {
    if vs == [] then 1 else vs[0] * Product(vs[1..])
  }

  /** `vs` lists the integer projections of the operands `args[i..]`. */
  predicate ValuesFrom(args: seq<Expr>, i: nat, vs: seq<int>, env: EnvMap, fs: Floats)
    requires i <= |args|
  {
    |vs| == |args| - i && forall j :: 0 <= j < |vs| ==> Integer(args[i + j], env, fs) == Ok(vs[j])
  }

  // ---------------------------------------------------------------------
  // Arithmetic folds

  /** Dropping the first listed value lists the operands from `i + 1`. */
  lemma ValuesTail(args: seq<Expr>, i: nat, vs: seq<int>, env: EnvMap, fs: Floats)
    requires i < |args| && ValuesFrom(args, i, vs, env, fs)
    ensures Integer(args[i], env, fs) == Ok(vs[0])
    ensures ValuesFrom(args, i + 1, vs[1..], env, fs)
  {
    assert Integer(args[i + 0], env, fs) == Ok(vs[0]);
    forall j | 0 <= j < |vs| - 1
      ensures Integer(args[i + 1 + j], env, fs) == Ok(vs[1..][j])
    {
      assert Integer(args[i + (j + 1)], env, fs) == Ok(vs[j + 1]);
    }
  }

  /** One wrapped additive step followed by the wrapped rest equals one
      wrapped total. */
  lemma AdditiveStep(acc: int, v: int, rest: int)
    ensures Wrap(Wrap(acc + v) + rest) == Wrap(acc + (v + rest))
    ensures Wrap(Wrap(acc - v) - rest) == Wrap(acc - (v + rest))
  {
    WrapAdd(acc + v, rest);
    WrapAdd(acc - v, -rest);
  }

  lemma MultiplicativeStep(acc: int, v: int, rest: int)
    ensures Wrap(Wrap(acc * v) * rest) == Wrap(acc * (v * rest))
  {
    WrapMul(acc * v, rest);
    assert acc * v * rest == acc * (v * rest);
  }

  /** One iteration of a fold whose next operand projects to `x`. */
  lemma FoldStep(e: Expr, i: nat, acc: int, k: Arith, x: int, env: EnvMap, fs: Floats)
    requires e.Binary? && i < |e.args| && InRange(acc)
    requires Integer(e.args[i], env, fs) == Ok(x) && Step(k, acc, x).Ok?
    ensures FoldInt(e, i, acc, k, env, fs) == FoldInt(e, i + 1, Step(k, acc, x).value, k, env, fs)
  {
  }

  /** The value a fold of kind `k` reaches from `acc` over the values `vs`,
      wrapped once at the end. */
  function Folded(k: Arith, acc: int, vs: seq<int>): int
    requires k != Div
  {
    if k == Add then Wrap(acc + Sum(vs))
    else if k == Sub then Wrap(acc - Sum(vs))
    else Wrap(acc * Product(vs))
  }

  /** Wrapping after the first operand and again at the end is the same as
      wrapping once. */
  lemma FoldedStep(k: Arith, acc: int, vs: seq<int>)
    requires k != Div && vs != []
    ensures Step(k, acc, vs[0]).Ok?
    ensures Folded(k, Step(k, acc, vs[0]).value, vs[1..]) == Folded(k, acc, vs)
  {
    match k
    case Add =>
      AdditiveStep(acc, vs[0], Sum(vs[1..]));
    case Sub =>
      AdditiveStep(acc, vs[0], Sum(vs[1..]));
    case Mul =>
      MultiplicativeStep(acc, vs[0], Product(vs[1..]));
  }

  /** One iteration of a `+`, `-` or `*` fold: if the rest of the fold
      reaches its wrapped total, so does the whole. */
  lemma ArithmeticFoldStep(e: Expr, i: nat, acc: int, k: Arith, vs: seq<int>, env: EnvMap, fs: Floats)
    requires e.Binary? && i < |e.args| && InRange(acc) && k != Div
    requires ValuesFrom(e.args, i, vs, env, fs)
    ensures Step(k, acc, vs[0]).Ok? && ValuesFrom(e.args, i + 1, vs[1..], env, fs)
    ensures FoldInt(e, i + 1, Step(k, acc, vs[0]).value, k, env, fs) == Ok(Folded(k, Step(k, acc, vs[0]).value, vs[1..]))
        ==> FoldInt(e, i, acc, k, env, fs) == Ok(Folded(k, acc, vs))
  {
    ValuesTail(e.args, i, vs, env, fs);
    FoldedStep(k, acc, vs);
    FoldStep(e, i, acc, k, vs[0], env, fs);
  }

  /** A `+`, `-` or `*` fold computes the wrapped sum, difference or product
      of the operands' values. */
  lemma {:induction false} ArithmeticFold(e: Expr, i: nat, acc: int, k: Arith, vs: seq<int>, env: EnvMap, fs: Floats)
    requires e.Binary? && i <= |e.args| && InRange(acc) && k != Div
    requires ValuesFrom(e.args, i, vs, env, fs)
    ensures FoldInt(e, i, acc, k, env, fs) == Ok(Folded(k, acc, vs))
    decreases |e.args| - i
  {
    if i < |e.args| {
      ArithmeticFoldStep(e, i, acc, k, vs, env, fs);
      ArithmeticFold(e, i + 1, Step(k, acc, vs[0]).value, k, vs[1..], env, fs);
    } else {
      FoldedEmpty(k, acc);
    }
  }

  lemma FoldedEmpty(k: Arith, acc: int)
    requires InRange(acc) && k != Div
    ensures Folded(k, acc, []) == acc
  {
  }

  /** `+` is the 64-bit sum of all operands; with no operands it is 0. */
  lemma AddIsSum(args: seq<Expr>, vs: seq<int>, env: EnvMap, fs: Floats)
    requires ValuesFrom(args, 0, vs, env, fs)
    ensures Integer(Binary("+", args), env, fs) == Ok(Wrap(Sum(vs)))
    ensures args == [] ==> Integer(Binary("+", args), env, fs) == Ok(0)
  {
    ArithmeticFold(Binary("+", args), 0, 0, Add, vs, env, fs);
  }

  /** `*` is the 64-bit product of all operands; with no operands it is 1. */
  lemma MulIsProduct(args: seq<Expr>, vs: seq<int>, env: EnvMap, fs: Floats)
    requires ValuesFrom(args, 0, vs, env, fs)
    ensures Integer(Binary("*", args), env, fs) == Ok(Wrap(Product(vs)))
    ensures args == [] ==> Integer(Binary("*", args), env, fs) == Ok(1)
  {
    ArithmeticFold(Binary("*", args), 0, 1, Mul, vs, env, fs);
  }

  /** `-` is the first operand minus all the others. */
  lemma SubIsFirstMinusRest(args: seq<Expr>, vs: seq<int>, env: EnvMap, fs: Floats)
    requires |args| > 0 && ValuesFrom(args, 0, vs, env, fs)
    ensures Integer(Binary("-", args), env, fs) == Ok(Wrap(vs[0] - Sum(vs[1..])))
  {
    ValuesTail(args, 0, vs, env, fs);
    LeftFoldUnfolds("-", args, vs[0], env, fs);
    ArithmeticFold(Binary("-", args), 1, vs[0], Sub, vs[1..], env, fs);
  }

  /** `-` and `/` fold the later operands into the value of `Args[0]`. */
  lemma LeftFoldUnfolds(op: string, args: seq<Expr>, x: int, env: EnvMap, fs: Floats)
    requires (op == "-" || op == "/") && |args| > 0 && Integer(args[0], env, fs) == Ok(x)
    ensures Integer(Binary(op, args), env, fs) == FoldInt(Binary(op, args), 1, x, if op == "-" then Sub else Div, env, fs)
  {
  }

  /** `-` and `/` read `Args[0]`, so with no operands they fault. */
  lemma LeftFoldsNeedAnOperand(op: string, env: EnvMap, fs: Floats)
    requires op == "-" || op == "/"
    ensures Integer(Binary(op, []), env, fs) == Err(IndexOutOfRange)
  {
  }

  /** `/` divides the first operand by the second, truncating toward zero,
      when the quotient fits in 64 bits. */
  lemma DivIsTruncatedQuotient(a: Expr, b: Expr, x: int, y: int, env: EnvMap, fs: Floats)
    requires Integer(a, env, fs) == Ok(x) && Integer(b, env, fs) == Ok(y)
    requires y != 0 && InRange(Quot(x, y))
    ensures Integer(Binary("/", [a, b]), env, fs) == Ok(Quot(x, y))
  {
    var e := Binary("/", [a, b]);
    assert e.args[1] == b;
    assert FoldInt(e, 1, x, Div, env, fs) == FoldInt(e, 2, Wrap(Quot(x, y)), Div, env, fs);
  }

  /** Reference for a `/` fold: Go's truncating quotients taken left to
      right, each wrapped to 64 bits (only the most negative value divided by
      -1 actually wraps, back to itself). */
  function QuotFold(acc: int, vs: seq<int>): int
    requires forall j :: 0 <= j < |vs| ==> vs[j] != 0
    decreases |vs|
  {
    if vs == [] then acc else QuotFold(Wrap(Quot(acc, vs[0])), vs[1..])
  }

  /** A `/` fold over non-zero divisors computes `QuotFold`. */
  lemma {:induction false} DivFold(e: Expr, i: nat, acc: int, vs: seq<int>, env: EnvMap, fs: Floats)
    requires e.Binary? && i <= |e.args| && InRange(acc)
    requires ValuesFrom(e.args, i, vs, env, fs)
    requires forall j :: 0 <= j < |vs| ==> vs[j] != 0
    ensures FoldInt(e, i, acc, Div, env, fs) == Ok(QuotFold(acc, vs))
    decreases |e.args| - i
  {
    if i < |e.args| {
      DivFoldStep(e, i, acc, vs, env, fs);
      assert forall j :: 0 <= j < |vs[1..]| ==> vs[1..][j] == vs[j + 1];
      DivFold(e, i + 1, Wrap(Quot(acc, vs[0])), vs[1..], env, fs);
    }
  }

  /** One iteration of a `/` fold by a non-zero divisor. */
  lemma DivFoldStep(e: Expr, i: nat, acc: int, vs: seq<int>, env: EnvMap, fs: Floats)
    requires e.Binary? && i < |e.args| && InRange(acc)
    requires ValuesFrom(e.args, i, vs, env, fs) && vs[0] != 0
    ensures ValuesFrom(e.args, i + 1, vs[1..], env, fs)
    ensures FoldInt(e, i, acc, Div, env, fs) == FoldInt(e, i + 1, Wrap(Quot(acc, vs[0])), Div, env, fs)
  {
    ValuesTail(e.args, i, vs, env, fs);
    FoldStep(e, i, acc, Div, vs[0], env, fs);
  }

  /** `/` divides `Args[0]` by every later operand in turn, left to right,
      when none of them is zero: `(/ a)` is `a` and `(/ a b c)` is
      `(a / b) / c`. */
  lemma DivIsQuotFold(args: seq<Expr>, vs: seq<int>, env: EnvMap, fs: Floats)
    requires |args| > 0 && ValuesFrom(args, 0, vs, env, fs)
    requires forall j :: 1 <= j < |vs| ==> vs[j] != 0
    ensures Integer(Binary("/", args), env, fs) == Ok(QuotFold(vs[0], vs[1..]))
    ensures |args| == 1 ==> Integer(Binary("/", args), env, fs) == Ok(vs[0])
  {
    ValuesTail(args, 0, vs, env, fs);
    LeftFoldUnfolds("/", args, vs[0], env, fs);
    assert forall j :: 0 <= j < |vs[1..]| ==> vs[1..][j] == vs[j + 1];
    DivFold(Binary("/", args), 1, vs[0], vs[1..], env, fs);
  }

  /** The one quotient that does not fit: the most negative value divided
      by -1 wraps back to itself, as Go's division does. */
  lemma MostNegativeOverMinusOneWraps()
    ensures !InRange(Quot(-0x8000_0000_0000_0000, -1))
    ensures QuotFold(-0x8000_0000_0000_0000, [-1]) == -0x8000_0000_0000_0000
    ensures DivStep(-0x8000_0000_0000_0000, -1) == Ok(-0x8000_0000_0000_0000)
  {
    assert Quot(-0x8000_0000_0000_0000, -1) == 0x8000_0000_0000_0000;
  }

  lemma {:induction false} DivFoldFaults(e: Expr, i: nat, acc: int, vs: seq<int>, z: nat, env: EnvMap, fs: Floats)
    requires e.Binary? && i <= |e.args| && InRange(acc)
    requires ValuesFrom(e.args, i, vs, env, fs)
    requires z < |vs| && vs[z] == 0
    ensures FoldInt(e, i, acc, Div, env, fs) == Err(DivideByZero)
    decreases |e.args| - i
  {
    ValuesTail(e.args, i, vs, env, fs);
    if vs[0] != 0 {
      FoldStep(e, i, acc, Div, vs[0], env, fs);
      DivFoldFaults(e, i + 1, Wrap(Quot(acc, vs[0])), vs[1..], z - 1, env, fs);
    }
  }

  /** A zero among the divisors makes `/` fault (Go's integer division by
      zero panics). */
  lemma DivisionByZeroFaults(args: seq<Expr>, vs: seq<int>, z: nat, env: EnvMap, fs: Floats)
    requires ValuesFrom(args, 0, vs, env, fs)
    requires 1 <= z < |vs| && vs[z] == 0
    ensures Integer(Binary("/", args), env, fs) == Err(DivideByZero)
  {
    ValuesTail(args, 0, vs, env, fs);
    LeftFoldUnfolds("/", args, vs[0], env, fs);
    DivFoldFaults(Binary("/", args), 1, vs[0], vs[1..], z - 1, env, fs);
  }

  /** A fold stops at the first operand that faults, and that fault is its
      result whatever the later operands are. For `/` the operands before it
      must be non-zero, since a zero divisor faults first. */
  lemma {:induction false} FoldPropagates(e: Expr, i: nat, acc: int, k: Arith, z: nat, env: EnvMap, fs: Floats)
    requires e.Binary? && i <= z < |e.args| && InRange(acc)
    requires forall j :: i <= j < z ==> Integer(e.args[j], env, fs).Ok? && (k == Div ==> Integer(e.args[j], env, fs).value != 0)
    requires Integer(e.args[z], env, fs).Err?
    ensures FoldInt(e, i, acc, k, env, fs) == Err(Integer(e.args[z], env, fs).fault)
    decreases z - i
  {
    if i < z {
      var x := Integer(e.args[i], env, fs).value;
      FoldStep(e, i, acc, k, x, env, fs);
      FoldPropagates(e, i + 1, Step(k, acc, x).value, k, z, env, fs);
    } else {
      FoldStops(e, i, acc, k, env, fs);
    }
  }

  lemma FoldStops(e: Expr, i: nat, acc: int, k: Arith, env: EnvMap, fs: Floats)
    requires e.Binary? && i < |e.args| && InRange(acc)
    requires Integer(e.args[i], env, fs).Err?
    ensures FoldInt(e, i, acc, k, env, fs) == Err(Integer(e.args[i], env, fs).fault)
  {
  }

  /** Under the integer projections an arithmetic node faults with the fault
      of its first faulting operand (for `/`, when no earlier divisor is
      zero). */
  lemma ArithmeticFaultPropagates(op: string, args: seq<Expr>, z: nat, env: EnvMap, fs: Floats)
    requires op in {"+", "-", "*", "/"} && z < |args|
    requires forall j :: 0 <= j < z ==> Integer(args[j], env, fs).Ok?
    requires forall j :: 1 <= j < z && op == "/" ==> Integer(args[j], env, fs).value != 0
    requires Integer(args[z], env, fs).Err?
    ensures Integer(Binary(op, args), env, fs) == Err(Integer(args[z], env, fs).fault)
  {
    var e := Binary(op, args);
    if op == "+" {
      FoldPropagates(e, 0, 0, Add, z, env, fs);
    } else if op == "*" {
      FoldPropagates(e, 0, 1, Mul, z, env, fs);
    } else if z > 0 {
      LeftFoldUnfolds(op, args, Integer(args[0], env, fs).value, env, fs);
      FoldPropagates(e, 1, Integer(args[0], env, fs).value, if op == "-" then Sub else Div, z, env, fs);
    }
  }

  // ---------------------------------------------------------------------
  // The conditional

  /** `if` evaluates exactly one arm, in the same projection: the arm not
      taken may be replaced by anything, even a node that would fault. */
  lemma IfEvaluatesOneArm(cond: Expr, yes: Expr, no: Expr, other: Expr, c: bool, env: EnvMap, fs: Floats)
    requires Bool(cond, env, fs) == Ok(c)
    ensures c ==> Integer(Binary("if", [cond, yes, other]), env, fs) == Integer(yes, env, fs)
    ensures !c ==> Integer(Binary("if", [cond, other, no]), env, fs) == Integer(no, env, fs)
    ensures c ==> Bool(Binary("if", [cond, yes, other]), env, fs) == Bool(yes, env, fs)
    ensures !c ==> Bool(Binary("if", [cond, other, no]), env, fs) == Bool(no, env, fs)
  {
  }

  /** A true condition needs only the first arm to exist. */
  lemma IfNeedsOnlyTheTakenArm(cond: Expr, yes: Expr, c: bool, env: EnvMap, fs: Floats)
    requires Bool(cond, env, fs) == Ok(c)
    ensures Integer(Binary("if", [cond, yes]), env, fs)
         == if c then Integer(yes, env, fs) else Err(IndexOutOfRange)
    ensures Bool(Binary("if", [cond, yes]), env, fs)
         == if c then Bool(yes, env, fs) else Err(IndexOutOfRange)
  {
  }

  /** Operators that index fixed operands fault with `IndexOutOfRange` when
      those operands are missing: a comparison needs two, `in` and `if` need
      one. A lone comparison operand is projected first, so its own fault
      wins. */
  lemma ArityFaults(op: string, a: Expr, env: EnvMap, fs: Floats)
    requires op in Comparisons
    ensures Bool(Binary(op, []), env, fs) == Err(IndexOutOfRange)
    ensures fs.project(a).Ok? ==> Bool(Binary(op, [a]), env, fs) == Err(IndexOutOfRange)
    ensures fs.project(a).Err? ==> Bool(Binary(op, [a]), env, fs) == Err(fs.project(a).fault)
    ensures Bool(Binary("in", []), env, fs) == Err(IndexOutOfRange)
    ensures Integer(Binary("if", []), env, fs) == Err(IndexOutOfRange)
    ensures Bool(Binary("if", []), env, fs) == Err(IndexOutOfRange)
  {
  }

  // ---------------------------------------------------------------------
  // What each projection rejects

  /** Under the integer projections only `+ - * / if` have a case; a
      comparison, `and`, `or`, `in` or the empty operator faults. */
  lemma IntegerRejectsOtherOperators(op: string, args: seq<Expr>, env: EnvMap, fs: Floats)
    requires op !in {"+", "-", "*", "/", "if"}
    ensures Integer(Binary(op, args), env, fs) == Err(InvalidMethod)
  {
  }

  /** Under `ToBool` every spelling outside the operator table, the empty
      operator included, faults. */
  lemma BoolRejectsUnknownOperators(op: string, args: seq<Expr>, env: EnvMap, fs: Floats)
    requires op !in Operators
    ensures Bool(Binary(op, args), env, fs) == Err(InvalidMethod)
  {
  }

  // ---------------------------------------------------------------------
  // Logical operators

  lemma {:induction false} AllMeaning(e: Expr, i: nat, env: EnvMap, fs: Floats)
    requires e.Binary? && i <= |e.args|
    ensures All(e, i, env, fs) == Ok(true) <==> forall j :: i <= j < |e.args| ==> Bool(e.args[j], env, fs) == Ok(true)
    decreases |e.args| - i
  {
    if i < |e.args| {
      AllMeaning(e, i + 1, env, fs);
    }
  }

  lemma {:induction false} AllStops(e: Expr, i: nat, k: nat, env: EnvMap, fs: Floats)
    requires e.Binary? && i <= k < |e.args|
    requires forall j :: i <= j < k ==> Bool(e.args[j], env, fs) == Ok(true)
    requires Bool(e.args[k], env, fs) == Ok(false)
    ensures All(e, i, env, fs) == Ok(false)
    decreases k - i
  {
    if i < k {
      AllStops(e, i + 1, k, env, fs);
    }
  }

  lemma {:induction false} AnyMeaning(e: Expr, i: nat, env: EnvMap, fs: Floats)
    requires e.Binary? && i <= |e.args|
    ensures Any(e, i, env, fs) == Ok(false) <==> forall j :: i <= j < |e.args| ==> Bool(e.args[j], env, fs) == Ok(false)
    decreases |e.args| - i
  {
    if i < |e.args| {
      AnyMeaning(e, i + 1, env, fs);
    }
  }

  lemma {:induction false} AnyStops(e: Expr, i: nat, k: nat, env: EnvMap, fs: Floats)
    requires e.Binary? && i <= k < |e.args|
    requires forall j :: i <= j < k ==> Bool(e.args[j], env, fs) == Ok(false)
    requires Bool(e.args[k], env, fs) == Ok(true)
    ensures Any(e, i, env, fs) == Ok(true)
    decreases k - i
  {
    if i < k {
      AnyStops(e, i + 1, k, env, fs);
    }
  }

  lemma {:induction false} AllPropagates(e: Expr, i: nat, z: nat, env: EnvMap, fs: Floats)
    requires e.Binary? && i <= z < |e.args|
    requires forall j :: i <= j < z ==> Bool(e.args[j], env, fs) == Ok(true)
    requires Bool(e.args[z], env, fs).Err?
    ensures All(e, i, env, fs) == Err(Bool(e.args[z], env, fs).fault)
    decreases z - i
  {
    if i < z {
      AllPropagates(e, i + 1, z, env, fs);
    }
  }

  lemma {:induction false} AnyPropagates(e: Expr, i: nat, z: nat, env: EnvMap, fs: Floats)
    requires e.Binary? && i <= z < |e.args|
    requires forall j :: i <= j < z ==> Bool(e.args[j], env, fs) == Ok(false)
    requires Bool(e.args[z], env, fs).Err?
    ensures Any(e, i, env, fs) == Err(Bool(e.args[z], env, fs).fault)
    decreases z - i
  {
    if i < z {
      AnyPropagates(e, i + 1, z, env, fs);
    }
  }

  /** `and` faults with the fault of an operand reached after only true
      ones, and `or` with one reached after only false ones. */
  lemma LogicalFaultPropagates(op: string, args: seq<Expr>, z: nat, env: EnvMap, fs: Floats)
    requires op in {"and", "&&", "or", "||"} && z < |args|
    requires forall j :: 0 <= j < z ==> Bool(args[j], env, fs) == Ok(op == "and" || op == "&&")
    requires Bool(args[z], env, fs).Err?
    ensures Bool(Binary(op, args), env, fs) == Err(Bool(args[z], env, fs).fault)
  {
    if op == "and" || op == "&&" {
      AllPropagates(Binary(op, args), 0, z, env, fs);
    } else {
      AnyPropagates(Binary(op, args), 0, z, env, fs);
    }
  }

  /** `and` / `&&` is true exactly when every operand is true (so it is true
      with no operands), and it is false as soon as an operand is false after
      only true ones, whatever the later operands would do. */
  lemma AndMeaning(op: string, args: seq<Expr>, env: EnvMap, fs: Floats)
    requires op == "and" || op == "&&"
    ensures Bool(Binary(op, args), env, fs) == Ok(true) <==> forall j :: 0 <= j < |args| ==> Bool(args[j], env, fs) == Ok(true)
    ensures forall k ::
              0 <= k < |args| && Bool(args[k], env, fs) == Ok(false) &&
              (forall j :: 0 <= j < k ==> Bool(args[j], env, fs) == Ok(true))
              ==> Bool(Binary(op, args), env, fs) == Ok(false)
  {
    AllMeaning(Binary(op, args), 0, env, fs);
    forall k | 0 <= k < |args| && Bool(args[k], env, fs) == Ok(false) &&
      (forall j :: 0 <= j < k ==> Bool(args[j], env, fs) == Ok(true))
      ensures Bool(Binary(op, args), env, fs) == Ok(false)
    {
      AllStops(Binary(op, args), 0, k, env, fs);
    }
  }

  /** `or` / `||` is false exactly when every operand is false (so it is false
      with no operands), and it is true as soon as an operand is true after
      only false ones, whatever the later operands would do. */
  lemma OrMeaning(op: string, args: seq<Expr>, env: EnvMap, fs: Floats)
    requires op == "or" || op == "||"
    ensures Bool(Binary(op, args), env, fs) == Ok(false) <==> forall j :: 0 <= j < |args| ==> Bool(args[j], env, fs) == Ok(false)
    ensures forall k ::
              0 <= k < |args| && Bool(args[k], env, fs) == Ok(true) &&
              (forall j :: 0 <= j < k ==> Bool(args[j], env, fs) == Ok(false))
              ==> Bool(Binary(op, args), env, fs) == Ok(true)
  {
    AnyMeaning(Binary(op, args), 0, env, fs);
    forall k | 0 <= k < |args| && Bool(args[k], env, fs) == Ok(true) &&
      (forall j :: 0 <= j < k ==> Bool(args[j], env, fs) == Ok(false))
      ensures Bool(Binary(op, args), env, fs) == Ok(true)
    {
      AnyStops(Binary(op, args), 0, k, env, fs);
    }
  }

  lemma {:induction false} MemberMeaning(args: seq<Expr>, i: nat, x: real, fs: Floats)
    requires i <= |args|
    requires forall j :: i <= j < |args| ==> fs.project(args[j]).Ok?
    ensures Member(args, i, x, fs) == Ok(exists j :: i <= j < |args| && fs.project(args[j]).value == x)
    decreases |args| - i
  {
    if i < |args| {
      MemberMeaning(args, i + 1, x, fs);
    }
  }

  /** `in` holds exactly when the float projection of `Args[0]` equals that
      of some later operand. */
  lemma InMeaning(args: seq<Expr>, env: EnvMap, fs: Floats)
    requires |args| > 0
    requires forall j :: 0 <= j < |args| ==> fs.project(args[j]).Ok?
    ensures Bool(Binary("in", args), env, fs)
         == Ok(exists j :: 1 <= j < |args| && fs.project(args[j]).value == fs.project(args[0]).value)
  {
    MemberMeaning(args, 1, fs.project(args[0]).value, fs);
  }

  lemma {:induction false} MemberPropagates(args: seq<Expr>, i: nat, x: real, z: nat, fs: Floats)
    requires i <= z < |args|
    requires forall j :: i <= j < z ==> fs.project(args[j]).Ok? && fs.project(args[j]).value != x
    requires fs.project(args[z]).Err?
    ensures Member(args, i, x, fs) == Err(fs.project(args[z]).fault)
    decreases z - i
  {
    if i < z {
      MemberPropagates(args, i + 1, x, z, fs);
    }
  }

  /** `in` faults with the fault of the first operand whose float projection
      fails, provided no earlier operand matched `Args[0]`. */
  lemma InFaultPropagates(args: seq<Expr>, z: nat, env: EnvMap, fs: Floats)
    requires z < |args|
    requires forall j :: 0 <= j < z ==> fs.project(args[j]).Ok?
    requires forall j :: 1 <= j < z ==> fs.project(args[j]).value != fs.project(args[0]).value
    requires fs.project(args[z]).Err?
    ensures Bool(Binary("in", args), env, fs) == Err(fs.project(args[z]).fault)
  {
    if z > 0 {
      MemberPropagates(args, 1, fs.project(args[0]).value, z, fs);
    }
  }

  /** A comparison compares the float projections of its first two operands
      and ignores any further operand. */
  lemma ComparisonReadsTwoFloats(op: string, args: seq<Expr>, a: real, b: real, env: EnvMap, fs: Floats)
    requires op in Comparisons && |args| >= 2
    requires fs.project(args[0]) == Ok(a) && fs.project(args[1]) == Ok(b)
    ensures Bool(Binary(op, args), env, fs) == Ok(Compare(op, a, b))
    ensures Bool(Binary(op, args), env, fs) == Bool(Binary(op, args[..2]), env, fs)
  {
  }

  /** Under `ToBool` an arithmetic node is true when its float projection is
      not zero. */
  lemma ArithmeticTruthIsNonZero(op: string, args: seq<Expr>, env: EnvMap, fs: Floats)
    requires op in {"+", "-", "*", "/"}
    ensures fs.project(Binary(op, args)).Ok? ==>
      Bool(Binary(op, args), env, fs) == Ok(fs.project(Binary(op, args)).value != 0.0)
    ensures fs.project(Binary(op, args)).Err? ==>
      Bool(Binary(op, args), env, fs) == Err(fs.project(Binary(op, args)).fault)
  {
  }

  // ---------------------------------------------------------------------
  // Leaves

  /** An integer literal projects to the number it spells, under both the
      integer and the boolean projection. */
  lemma IntLiteralValue(n: int, env: EnvMap, fs: Floats)
    requires InRange(n)
    ensures Integer(Atom(IntLit, ShowDecimal(n)), env, fs) == Ok(n)
    ensures Bool(Atom(IntLit, ShowDecimal(n)), env, fs) == Ok(n != 0)
  {
    ParseShowDecimal(n);
  }

  /** A float literal truncates toward zero under the integer projections
      and is tested against zero, untruncated, under `ToBool`. */
  lemma FloatLiteralValue(t: string, f: real, env: EnvMap, fs: Floats)
    requires fs.parse(t) == Some(f)
    ensures -0x8000_0000_0000_0000 as real <= f < 0x8000_0000_0000_0000 as real ==>
      Integer(Atom(FloatLit, t), env, fs).Ok?
    ensures Integer(Atom(FloatLit, t), env, fs).Ok? ==>
      var v := Integer(Atom(FloatLit, t), env, fs).value;
      (f >= 0.0 ==> v as real <= f < v as real + 1.0) && (f < 0.0 ==> v as real - 1.0 < f <= v as real)
    ensures Bool(Atom(FloatLit, t), env, fs) == Ok(f != 0.0)
  {
  }

  /** A variable's truth is its value compared with zero in its own kind:
      for an integer that agrees with its integer projection, for a float it
      need not (0.5 is true but projects to 0). */
  lemma VarTruthInOwnKind(name: string, env: EnvMap, fs: Floats)
    requires name in env && IsScalar(env[name])
    ensures env[name].IntV? || env[name].Int64V? ==>
      Bool(Var(name), env, fs) == Ok(Integer(Var(name), env, fs).value != 0)
    ensures env[name].Float64V? ==> Bool(Var(name), env, fs) == Ok(env[name].f != 0.0)
  {
  }

  lemma HalfIsTrueButProjectsToZero(fs: Floats)
    ensures Integer(Var("x"), map["x" := Float64V(0.5)], fs) == Ok(0)
    ensures Bool(Var("x"), map["x" := Float64V(0.5)], fs) == Ok(true)
  {
  }
}

=== FILE: examples.dfy ===
/** Worked rules from the library's demo program and test file, as token
    streams with the character `scanner.Peek` sees after each token. */
module Examples {
  import opened Wrappers
  import opened Tokens
  import opened Ast
  import opened Parser
  import opened Values
  import opened Evaluator
  import opened Environment
  import opened EvaluatorFacts
  import ParserFacts
  import opened GoInt

  function L(t: Token, c: char): Lexeme {
    Lexeme(t, Some(c))
  }

  function I(text: string): Expr {
    Atom(IntLit, text)
  }

  /** `(+  (- id 1) 2 (+ 3 4))`. */
  const ArithmeticRule: seq<Lexeme> := [
    L(LParen, '+'), L(Other("+"), ' '),
    L(LParen, '-'), L(Other("-"), ' '), L(Ident("id"), ' '), L(Int("1"), ')'), L(RParen, ' '),
    L(Int("2"), ' '),
    L(LParen, '+'), L(Other("+"), ' '), L(Int("3"), ' '), L(Int("4"), ')'), L(RParen, ')'),
    Lexeme(RParen, None)
  ]

  const ArithmeticTree: Expr :=
    Binary("+", [Binary("-", [Var("id"), I("1")]), I("2"), Binary("+", [I("3"), I("4")])])

  /** The arithmetic rule parses to the expected tree and evaluates to 18
      with `id` bound to 10 by `Env(10, "id")`, whatever the float side. */
  lemma ArithmeticRuleEvaluates(fs: Floats)
    ensures Eval(ArithmeticRule) == Ok(ArithmeticTree)
    ensures Env(IntV(10), "id") == Ok(map["id" := IntV(10)])
    ensures Integer(ArithmeticTree, map["id" := IntV(10)], fs) == Ok(18)
  {
    ArithmeticRuleParses();
    ArithmeticRuleValue(fs);
  }

  /** Reading a lexeme off the front of a stream. */
  lemma Cons(x: Lexeme, r: seq<Lexeme>)
    requires x.token != EOF
    ensures Next([x] + r) == (x, r)
  {
    assert ([x] + r)[1..] == r;
  }

  /** The inner group `+ 3 4)`, whatever follows it. */
  lemma PlusGroupParses(f: Option<char>, rest: seq<Lexeme>)
    ensures ParseGroup([L(Other("+"), ' '), L(Int("3"), ' '), L(Int("4"), ')'), Lexeme(RParen, f)] + rest)
         == Ok(Parsed(Binary("+", [I("3"), I("4")]), rest))
  {
    var plus := Binary("+", [I("3"), I("4")]);
    var r3 := [Lexeme(RParen, f)] + rest;
    var r2 := [L(Int("4"), ')')] + r3;
    var r1 := [L(Int("3"), ' ')] + r2;
    var r0 := [L(Other("+"), ' ')] + r1;
    assert [L(Other("+"), ' '), L(Int("3"), ' '), L(Int("4"), ')'), Lexeme(RParen, f)] + rest == r0;
    Cons(r3[0], rest);
    assert ParseOperands(r3, "+", [I("3"), I("4")], "") == Ok(Parsed(plus, rest));
    Cons(r2[0], r3);
    assert Flush([I("3")], "") + [I("4")] == [I("3"), I("4")];
    assert ParseOperands(r2, "+", [I("3")], "") == Ok(Parsed(plus, rest));
    Cons(r1[0], r2);
    assert Flush([], "") + [I("3")] == [I("3")];
    assert ParseOperands(r1, "+", [], "") == Ok(Parsed(plus, rest));
    Cons(r0[0], r1);
  }

  /** The inner group `- id 1)`: `id` is buffered until the literal. */
  lemma MinusGroupParses(rest: seq<Lexeme>)
    ensures ParseGroup([L(Other("-"), ' '), L(Ident("id"), ' '), L(Int("1"), ')'), L(RParen, ' ')] + rest)
         == Ok(Parsed(Binary("-", [Var("id"), I("1")]), rest))
  {
    var minus := Binary("-", [Var("id"), I("1")]);
    var r3 := [L(RParen, ' ')] + rest;
    var r2 := [L(Int("1"), ')')] + r3;
    var r1 := [L(Ident("id"), ' ')] + r2;
    var r0 := [L(Other("-"), ' ')] + r1;
    assert [L(Other("-"), ' '), L(Ident("id"), ' '), L(Int("1"), ')'), L(RParen, ' ')] + rest == r0;
    Cons(r3[0], rest);
    assert ParseOperands(r3, "-", [Var("id"), I("1")], "") == Ok(Parsed(minus, rest));
    Cons(r2[0], r3);
    assert Flush([], "id") + [I("1")] == [Var("id"), I("1")];
    assert ParseOperands(r2, "-", [], "id") == Ok(Parsed(minus, rest));
    Cons(r1[0], r2);
    assert "" + "id" == "id";
    assert ParseOperands(r1, "-", [], "") == Ok(Parsed(minus, rest));
    Cons(r0[0], r1);
  }

  lemma ArithmeticRuleParses()
    ensures Eval(ArithmeticRule) == Ok(ArithmeticTree)
  {
    var minus := Binary("-", [Var("id"), I("1")]);
    var plus := Binary("+", [I("3"), I("4")]);
    var r13 := [Lexeme(RParen, None)];
    var r9 := [L(Other("+"), ' '), L(Int("3"), ' '), L(Int("4"), ')'), L(RParen, ')')] + r13;
    var r8 := [L(LParen, '+')] + r9;
    var r7 := [L(Int("2"), ' ')] + r8;
    var r3 := [L(Other("-"), ' '), L(Ident("id"), ' '), L(Int("1"), ')'), L(RParen, ' ')] + r7;
    var r2 := [L(LParen, '-')] + r3;
    var r1 := [L(Other("+"), ' ')] + r2;
    var r0 := [L(LParen, '+')] + r1;
    assert ArithmeticRule == r0;
    PlusGroupParses(Some(')'), r13);
    MinusGroupParses(r7);
    Cons(r13[0], []);
    assert r13 == [r13[0]] + [];
    assert ParseOperands(r13, "+", [minus, I("2"), plus], "") == Ok(Parsed(ArithmeticTree, []));
    Cons(r8[0], r9);
    assert [minus, I("2")] + [plus] == [minus, I("2"), plus];
    assert ParseOperands(r8, "+", [minus, I("2")], "") == Ok(Parsed(ArithmeticTree, []));
    Cons(r7[0], r8);
    assert Flush([minus], "") + [I("2")] == [minus, I("2")];
    assert ParseOperands(r7, "+", [minus], "") == Ok(Parsed(ArithmeticTree, []));
    Cons(r2[0], r3);
    assert [] + [minus] == [minus];
    assert ParseOperands(r2, "+", [], "") == Ok(Parsed(ArithmeticTree, []));
    Cons(r1[0], r2);
    assert ParseGroup(r1) == Ok(Parsed(ArithmeticTree, []));
    Cons(r0[0], r1);
  }

  lemma ArithmeticRuleValue(fs: Floats)
    ensures Env(IntV(10), "id") == Ok(map["id" := IntV(10)])
    ensures Integer(ArithmeticTree, map["id" := IntV(10)], fs) == Ok(18)
  {
    var env := map["id" := IntV(10)];
    LiteralValue(1, env, fs);
    LiteralValue(2, env, fs);
    LiteralValue(3, env, fs);
    LiteralValue(4, env, fs);
    var minus := Binary("-", [Var("id"), I("1")]);
    var plus := Binary("+", [I("3"), I("4")]);
    assert ValuesFrom(minus.args, 0, [10, 1], env, fs);
    SubIsFirstMinusRest(minus.args, [10, 1], env, fs);
    assert Integer(minus, env, fs) == Ok(9);
    assert ValuesFrom(plus.args, 0, [3, 4], env, fs);
    AddIsSum(plus.args, [3, 4], env, fs);
    assert Integer(plus, env, fs) == Ok(7);
    assert ValuesFrom(ArithmeticTree.args, 0, [9, 2, 7], env, fs);
    AddIsSum(ArithmeticTree.args, [9, 2, 7], env, fs);
  }

  /** The literal `n` for a small natural `n`. */
  lemma LiteralValue(n: nat, env: EnvMap, fs: Floats)
    requires 1 <= n <= 9
    ensures Integer(I([('0' as int + n) as char]), env, fs) == Ok(n)
  {
    IntLiteralValue(n, env, fs);
  }

  /** The lexemes of `sale.Shop.ShopID` followed by a blank. */
  const ShopIdName: seq<Lexeme> := [L(Ident("sale"), '.'), L(Dot, 'S')] + ShopIdTail
  const ShopIdTail: seq<Lexeme> := [L(Ident("Shop"), '.'), L(Dot, 'S'), L(Ident("ShopID"), ' ')]

  const ShopIdTest: Expr := Binary("==", [Var("sale.Shop.ShopID"), Atom(FloatLit, "2.3")])

  /** `(if (== sale.Shop.ShopID 2.3) 5 0` from the test file: the closing
      parenthesis is missing and the group ends at the end of input. */
  const ShopRule: seq<Lexeme> :=
    [L(LParen, 'i'), L(Ident("if"), ' '), L(LParen, '='), L(Other("="), '='), L(Other("="), ' ')] +
    ShopIdName +
    [L(Float("2.3"), ')'), L(RParen, ' '), L(Int("5"), ' '), Lexeme(Int("0"), None)]

  const ShopTree: Expr := Binary("if", [ShopIdTest, I("5"), I("0")])

  /** The last three fragments, `Shop.ShopID`. */
  lemma ShopIdTailSpells()
    ensures ParserFacts.NameLike(ShopIdTail)
    ensures ParserFacts.NameText(ShopIdTail) == "Shop.ShopID"
  {
    var n2 := [L(Ident("ShopID"), ' ')];
    var n1 := [L(Dot, 'S')] + n2;
    assert ShopIdTail == [L(Ident("Shop"), '.')] + n1;
    ParserFacts.NameTextCons(n2[0], []);
    assert n2 == [n2[0]] + [];
    ParserFacts.NameTextCons(n1[0], n2);
    ParserFacts.NameTextCons(ShopIdTail[0], n1);
    assert "Shop" + ("." + ("ShopID" + "")) == "Shop.ShopID";
  }

  lemma ShopIdNameSpells()
    ensures ParserFacts.NameLike(ShopIdName)
    ensures ParserFacts.NameText(ShopIdName) == "sale.Shop.ShopID"
  {
    ShopIdTailSpells();
    var n1 := [L(Dot, 'S')] + ShopIdTail;
    ParserFacts.NameTextCons(n1[0], ShopIdTail);
    ParserFacts.NameTextCons(ShopIdName[0], n1);
    assert ShopIdName == [ShopIdName[0]] + n1;
    assert "sale" + ("." + "Shop.ShopID") == "sale.Shop.ShopID";
  }

  /** The inner group `= = sale.Shop.ShopID 2.3)`: `=` followed by `=` is
      read as `==`, and the dotted name is buffered until the literal. */
  lemma ShopIdTestParses(rest: seq<Lexeme>)
    ensures ParseGroup([L(Other("="), '='), L(Other("="), ' ')] + ShopIdName + [L(Float("2.3"), ')'), L(RParen, ' ')] + rest)
         == Ok(Parsed(ShopIdTest, rest))
  {
    var name := "sale.Shop.ShopID";
    var r2 := [L(RParen, ' ')] + rest;
    var r1 := [L(Float("2.3"), ')')] + r2;
    var rn := ShopIdName + r1;
    var rp := [L(Other("="), ' ')] + rn;
    var r0 := [L(Other("="), '=')] + rp;
    assert [L(Other("="), '='), L(Other("="), ' ')] + ShopIdName + [L(Float("2.3"), ')'), L(RParen, ' ')] + rest == r0;
    Cons(r2[0], rest);
    assert ParseOperands(r2, "==", ShopIdTest.args, "") == Ok(Parsed(ShopIdTest, rest));
    Cons(r1[0], r2);
    assert Flush([], name) + [Atom(FloatLit, "2.3")] == ShopIdTest.args;
    assert ParseOperands(r1, "==", [], name) == Ok(Parsed(ShopIdTest, rest));
    ShopIdNameSpells();
    ParserFacts.IdentifiersAccumulate(ShopIdName, r1, "==", [], "");
    assert "" + name == name;
    assert ParseOperands(rn, "==", [], "") == Ok(Parsed(ShopIdTest, rest));
    Cons(r0[0], rp);
    Cons(rp[0], rn);
  }

  lemma ShopRuleParses()
    ensures Eval(ShopRule) == Ok(ShopTree)
  {
    var r13 := [Lexeme(Int("0"), None)];
    var r12 := [L(Int("5"), ' ')] + r13;
    var r3 := [L(Other("="), '='), L(Other("="), ' ')] + ShopIdName + [L(Float("2.3"), ')'), L(RParen, ' ')] + r12;
    var r2 := [L(LParen, '=')] + r3;
    var r1 := [L(Ident("if"), ' ')] + r2;
    var r0 := [L(LParen, 'i')] + r1;
    assert ShopRule == r0;
    ShopIdTestParses(r12);
    Cons(r13[0], []);
    assert r13 == [r13[0]] + [];
    assert Flush([ShopIdTest, I("5")], "") + [I("0")] == ShopTree.args;
    assert ParseOperands(r13, "if", [ShopIdTest, I("5")], "") == Ok(Parsed(ShopTree, []));
    Cons(r12[0], r13);
    assert Flush([ShopIdTest], "") + [I("5")] == [ShopIdTest, I("5")];
    assert ParseOperands(r12, "if", [ShopIdTest], "") == Ok(Parsed(ShopTree, []));
    Cons(r2[0], r3);
    assert [] + [ShopIdTest] == [ShopIdTest];
    assert ParseOperands(r2, "if", [], "") == Ok(Parsed(ShopTree, []));
    Cons(r1[0], r2);
    assert ParseGroup(r1) == Ok(Parsed(ShopTree, []));
    Cons(r0[0], r1);
  }

  /** The test's `Sale{1, 2.2, &Shop{3}}`, passed by pointer. */
  const Shop: GoValue := StructV([Field("ShopID", IntV(3))])

  const Sale: GoValue :=
    PtrV(StructV([Field("SaleID", IntV(1)), Field("SalePrice", Float64V(2.2)), Field("Shop", PtrV(Shop))]))

  const SaleEnv: EnvMap :=
    map["sale.SaleID" := IntV(1), "sale.SalePrice" := Float64V(2.2), "sale.Shop.ShopID" := IntV(3)]

  /** `Env(&sale, "sale")` produces the map the test file writes by hand. */
  lemma SaleEnvironment()
    ensures Env(Sale, "sale") == Ok(SaleEnv)
  {
    var sale := Sale.target;
    SaleFieldsAfterId();
    assert sale.fields[0] == Field("SaleID", IntV(1));
    assert FieldPath("sale", "SaleID") == "sale.SaleID";
    assert FlattenFields("sale", sale, 0) == Ok(map["sale.SaleID" := IntV(1)] + SaleEnvAfterId);
    SaleEnvUnion();
  }

  const SaleEnvAfterId: EnvMap :=
    map["sale.SalePrice" := Float64V(2.2)] + (map["sale.Shop.ShopID" := IntV(3)] + map[])

  lemma SaleEnvUnion()
    ensures map["sale.SaleID" := IntV(1)] + SaleEnvAfterId == SaleEnv
  {
  }

  /** The price and the shop, the fields after the id. */
  lemma SaleFieldsAfterId()
    ensures FlattenFields("sale", Sale.target, 1) == Ok(SaleEnvAfterId)
  {
    var sale := Sale.target;
    var shop := map["sale.Shop.ShopID" := IntV(3)];
    ShopEnvironment();
    assert sale.fields[2] == Field("Shop", PtrV(Shop));
    assert FieldPath("sale", "Shop") == "sale.Shop";
    assert FlattenField(FieldPath("sale", "Shop"), PtrV(Shop)) == Ok(shop);
    assert FlattenFields("sale", sale, 2) == Ok(shop + map[]);
    assert sale.fields[1] == Field("SalePrice", Float64V(2.2));
    assert FieldPath("sale", "SalePrice") == "sale.SalePrice";
  }

  /** The shop behind the pointer field is flattened under `sale.Shop`. */
  lemma ShopEnvironment()
    ensures Flatten("sale.Shop", Shop) == Ok(map["sale.Shop.ShopID" := IntV(3)])
  {
    var path := FieldPath("sale.Shop", "ShopID");
    assert path == "sale.Shop.ShopID";
    assert FlattenField(path, IntV(3)) == Ok(map[path := IntV(3)]);
    assert FlattenFields("sale.Shop", Shop, 1) == Ok(map[]);
    assert FlattenFields("sale.Shop", Shop, 0) == Ok(map[path := IntV(3)] + map[]);
    assert map[path := IntV(3)] + map[] == map[path := IntV(3)];
  }

  /** With the shop id 3 the comparison fails, so the rule evaluates to its
      `else` arm, 0. */
  lemma ShopRuleEvaluates(fs: Floats)
    requires fs.project(Var("sale.Shop.ShopID")) == Ok(3.0)
    requires fs.project(Atom(FloatLit, "2.3")) == Ok(2.3)
    ensures Eval(ShopRule) == Ok(ShopTree)
    ensures Env(Sale, "sale") == Ok(SaleEnv)
    ensures Integer(ShopTree, SaleEnv, fs) == Ok(0)
  {
    ShopRuleParses();
    SaleEnvironment();
    assert Bool(ShopIdTest, SaleEnv, fs) == Ok(false);
    IntLiteralValue(0, SaleEnv, fs);
    assert ShowDecimal(0) == "0";
  }

  /** `(if (>= sale.SaleID 1) 10.1 0)` from the demo: `>` followed by `=`
      is read as `>=`, and the `=` token is skipped. */
  const PriceRule: seq<Lexeme> :=
    [L(LParen, 'i'), L(Ident("if"), ' '), L(LParen, '>'), L(Other(">"), '='), L(Other("="), ' '),
     L(Ident("sale"), '.'), L(Dot, 'S'), L(Ident("SaleID"), ' '), L(Int("1"), ')'), L(RParen, ' '),
     L(Float("10.1"), ' '), L(Int("0"), ')'), Lexeme(RParen, None)]

  const SaleIdTest: Expr := Binary(">=", [Var("sale.SaleID"), I("1")])

  lemma SaleIdTestParses(rest: seq<Lexeme>)
    ensures ParseGroup([L(Other(">"), '='), L(Other("="), ' '), L(Ident("sale"), '.'), L(Dot, 'S'),
                        L(Ident("SaleID"), ' '), L(Int("1"), ')'), L(RParen, ' ')] + rest)
         == Ok(Parsed(SaleIdTest, rest))
  {
    var name := [L(Ident("sale"), '.'), L(Dot, 'S'), L(Ident("SaleID"), ' ')];
    var r2 := [L(RParen, ' ')] + rest;
    var r1 := [L(Int("1"), ')')] + r2;
    var rn := name + r1;
    var rp := [L(Other("="), ' ')] + rn;
    var r0 := [L(Other(">"), '=')] + rp;
    assert [L(Other(">"), '='), L(Other("="), ' '), L(Ident("sale"), '.'), L(Dot, 'S'),
            L(Ident("SaleID"), ' '), L(Int("1"), ')'), L(RParen, ' ')] + rest == r0;
    Cons(r2[0], rest);
    assert ParseOperands(r2, ">=", SaleIdTest.args, "") == Ok(Parsed(SaleIdTest, rest));
    Cons(r1[0], r2);
    assert Flush([], "sale.SaleID") + [I("1")] == SaleIdTest.args;
    assert ParseOperands(r1, ">=", [], "sale.SaleID") == Ok(Parsed(SaleIdTest, rest));
    assert ParserFacts.NameLike(name);
    assert ParserFacts.NameText(name) == "sale.SaleID";
    ParserFacts.IdentifiersAccumulate(name, r1, ">=", [], "");
    assert "" + "sale.SaleID" == "sale.SaleID";
    assert ParseOperands(rn, ">=", [], "") == Ok(Parsed(SaleIdTest, rest));
    Cons(r0[0], rp);
    Cons(rp[0], rn);
  }

  lemma PriceRuleParses()
    ensures Eval(PriceRule) == Ok(Binary("if", [SaleIdTest, Atom(FloatLit, "10.1"), I("0")]))
  {
    var tree := Binary("if", [SaleIdTest, Atom(FloatLit, "10.1"), I("0")]);
    var r12 := [Lexeme(RParen, None)];
    var r11 := [L(Int("0"), ')')] + r12;
    var r10 := [L(Float("10.1"), ' ')] + r11;
    var r3 := [L(Other(">"), '='), L(Other("="), ' '), L(Ident("sale"), '.'), L(Dot, 'S'),
               L(Ident("SaleID"), ' '), L(Int("1"), ')'), L(RParen, ' ')] + r10;
    var r2 := [L(LParen, '>')] + r3;
    var r1 := [L(Ident("if"), ' ')] + r2;
    var r0 := [L(LParen, 'i')] + r1;
    assert PriceRule == r0;
    SaleIdTestParses(r10);
    Cons(r12[0], []);
    assert r12 == [r12[0]] + [];
    assert ParseOperands(r12, "if", tree.args, "") == Ok(Parsed(tree, []));
    Cons(r11[0], r12);
    assert Flush([SaleIdTest, Atom(FloatLit, "10.1")], "") + [I("0")] == tree.args;
    assert ParseOperands(r11, "if", [SaleIdTest, Atom(FloatLit, "10.1")], "") == Ok(Parsed(tree, []));
    Cons(r10[0], r11);
    assert Flush([SaleIdTest], "") + [Atom(FloatLit, "10.1")] == [SaleIdTest, Atom(FloatLit, "10.1")];
    assert ParseOperands(r10, "if", [SaleIdTest], "") == Ok(Parsed(tree, []));
    Cons(r2[0], r3);
    assert [] + [SaleIdTest] == [SaleIdTest];
    assert ParseOperands(r2, "if", [], "") == Ok(Parsed(tree, []));
    Cons(r1[0], r2);
    assert ParseGroup(r1) == Ok(Parsed(tree, []));
    Cons(r0[0], r1);
  }

  /** `(and 0 missing)`: the first false operand ends the loop, so the
      unbound variable is never looked up. */
  lemma AndShortCircuits(fs: Floats)
    ensures Bool(Binary("and", [I("0"), Var("missing")]), map[], fs) == Ok(false)
    ensures Bool(Var("missing"), map[], fs) == Err(InvalidEnv)
  {
    assert Bool(I("0"), map[], fs) == Ok(false);
  }
}

=== FILE: goint.dfy ===
/** Go's fixed-width integer arithmetic and the strconv/conversion rules the
    evaluator relies on: two's-complement wrap-around, division truncating
    toward zero, `strconv.Atoi` / `strconv.ParseInt(s, 10, 0)` and the
    float-to-integer conversion `int(f)`. */
module GoInt {
  import opened Wrappers

  /** Go's `int` is 64 bits wide on a 64-bit platform, which the model
      assumes, so `int` and `int64` share this range and one model serves
      ToInt and ToInt64 alike. */
  predicate InRange(x: int) {
    -0x8000_0000_0000_0000 <= x <= 0x7fff_ffff_ffff_ffff
  }

  /** A value of Go's `int` / `int64`. */
  type Int64 = x: int | InRange(x)

  /** Two's-complement wrap-around: the unique 64-bit value congruent to `x`
      modulo 2^64. */
  function Wrap(x: int): (r: int)
    ensures InRange(r)
    ensures (r - x) % 0x1_0000_0000_0000_0000 == 0
    ensures InRange(x) ==> r == x
  {
    (x + 0x8000_0000_0000_0000) % 0x1_0000_0000_0000_0000 - 0x8000_0000_0000_0000
  }

  /** Wrap-around depends on `x` only modulo 2^64. */
  lemma WrapShift(x: int, k: int)
    ensures Wrap(x + 0x1_0000_0000_0000_0000 * k) == Wrap(x)
  {
  }

  /** Wrapping an intermediate sum does not change the wrapped total. */
  lemma WrapAdd(a: int, b: int)
    ensures Wrap(Wrap(a) + b) == Wrap(a + b)
  {
    var k := (Wrap(a) - a) / 0x1_0000_0000_0000_0000;
    assert Wrap(a) == a + 0x1_0000_0000_0000_0000 * k;
    WrapShift(a + b, k);
  }

  /** Wrapping an intermediate product does not change the wrapped product. */
  lemma WrapMul(a: int, b: int)
    ensures Wrap(Wrap(a) * b) == Wrap(a * b)
  {
    var k := (Wrap(a) - a) / 0x1_0000_0000_0000_0000;
    assert Wrap(a) == a + 0x1_0000_0000_0000_0000 * k;
    assert Wrap(a) * b == a * b + 0x1_0000_0000_0000_0000 * (k * b);
    WrapShift(a * b, k * b);
  }

  function Abs(x: int): nat {
    if x < 0 then -x else x
  }

  /** Go's integer quotient, which truncates toward zero (Dafny's `/` is
      Euclidean): the remainder is smaller than the divisor in magnitude and
      never has the opposite sign of the dividend. */
  function Quot(a: int, b: int): (q: int)
    requires b != 0
    ensures Abs(a - q * b) < Abs(b)
    ensures a >= 0 ==> a - q * b >= 0
    ensures a < 0 ==> a - q * b <= 0
  {
    var m := Abs(a) / Abs(b);
    EuclidNat(Abs(a), Abs(b));
    var q := if (a < 0) == (b < 0) then m else -m;
    assert q * b == (if a < 0 then -(m * Abs(b)) else m * Abs(b)) by {
      if b < 0 {
        assert q * b == (-q) * Abs(b);
      }
    }
    q
  }

  /** Euclid's division on naturals, stated with the product made explicit. */
  lemma EuclidNat(x: nat, y: nat)
    requires y > 0
    ensures 0 <= x - (x / y) * y < y
  {
    assert x == y * (x / y) + x % y;
  }

  /** One step of `res /= x`: a zero divisor panics, the
      quotient of the most negative value by -1 wraps back to itself. */
  function DivStep(acc: int, x: int): (r: Result<int>)
    ensures r.Err? <==> x == 0
    ensures r.Ok? ==> InRange(r.value)
    ensures r.Ok? && InRange(acc) && InRange(Quot(acc, x)) ==> r.value == Quot(acc, x)
  {
    if x == 0 then Err(DivideByZero) else Ok(Wrap(Quot(acc, x)))
  }

  /** Go's conversion `int(f)` / `int64(f)` from float64: truncation toward
      zero. Go leaves the result of an out-of-range conversion to the
      implementation; the model reports `FloatOverflow` instead. */
  function FloatToInt(f: real): (r: Result<int>)
    ensures r.Ok? ==> InRange(r.value)
    ensures r.Err? ==> r == Err(FloatOverflow)
    ensures r.Ok? && f >= 0.0 ==> r.value as real <= f < r.value as real + 1.0
    ensures r.Ok? && f < 0.0 ==> r.value as real - 1.0 < f <= r.value as real
  {
    var t := if f >= 0.0 then f.Floor else -((-f).Floor);
    if InRange(t) then Ok(t) else Err(FloatOverflow)
  }

  predicate IsDigit(c: char) {
    '0' <= c <= '9'
  }

  predicate AllDigits(s: string) {
    forall i :: 0 <= i < |s| ==> IsDigit(s[i])
  }

  /** The natural number written by a run of decimal digits. */
  function DigitsValue(s: string): nat
    requires AllDigits(s)
  {
    if s == [] then 0
    else DigitsValue(s[..|s| - 1]) * 10 + (s[|s| - 1] as int - '0' as int)
  }

  /** `strconv.Atoi(s)` and `strconv.ParseInt(s, 10, 0)`, which agree on a
      64-bit platform: an optional `+` or `-`, then one or more decimal digits
      (no underscores in base 10), and the value must fit in 64 bits. */
  function ParseDecimal(s: string): (r: Result<int>)
    ensures r.Err? ==> r.fault == InvalidLiteral
    ensures r.Ok? ==> InRange(r.value)
    ensures r.Ok? ==> |s| > 0
  {
    var signed := |s| > 0 && (s[0] == '-' || s[0] == '+');
    var digits := if signed then s[1..] else s;
    if |digits| == 0 || !AllDigits(digits) then Err(InvalidLiteral)
    else
      var v: int := if signed && s[0] == '-' then -(DigitsValue(digits) as int) else DigitsValue(digits);
      if InRange(v) then Ok(v) else Err(InvalidLiteral)
  }

  /** An accepted text is an optional sign followed by digits only. */
  lemma DecimalShape(s: string)
    ensures ParseDecimal(s).Ok? ==> |s| > 0 && (IsDigit(s[0]) || s[0] == '-' || s[0] == '+')
    ensures ParseDecimal(s).Ok? ==> forall i :: 0 < i < |s| ==> IsDigit(s[i])
  {
    if ParseDecimal(s).Ok? && !(s[0] == '-' || s[0] == '+') {
      assert AllDigits(s);
    }
  }

  /** A run of digits reads as the number it writes, and a minus sign in
      front negates it; a value that does not fit in 64 bits is rejected. */
  lemma DecimalValue(s: string)
    ensures |s| > 0 && AllDigits(s) && InRange(DigitsValue(s)) ==> ParseDecimal(s) == Ok(DigitsValue(s))
    ensures |s| > 1 && s[0] == '-' && AllDigits(s[1..]) && InRange(-(DigitsValue(s[1..]) as int)) ==>
      ParseDecimal(s) == Ok(-(DigitsValue(s[1..]) as int))
    ensures |s| > 0 && AllDigits(s) && !InRange(DigitsValue(s)) ==> ParseDecimal(s) == Err(InvalidLiteral)
    ensures |s| > 1 && s[0] == '-' && AllDigits(s[1..]) && !InRange(-(DigitsValue(s[1..]) as int)) ==>
      ParseDecimal(s) == Err(InvalidLiteral)
  {
    if |s| > 0 && AllDigits(s) {
      assert IsDigit(s[0]);
    }
  }

  /** Decimal digits of a natural number, most significant first. */
  function ShowNat(n: nat): (s: string)
    ensures |s| > 0 && AllDigits(s)
  {
    var d := [('0' as int + n % 10) as char];
    if n < 10 then d else ShowNat(n / 10) + d
  }

  /** The canonical decimal text of an integer (what `strconv.Itoa` writes). */
  function ShowDecimal(n: int): string {
    if n < 0 then "-" + ShowNat(-n) else ShowNat(n)
  }

  lemma {:induction false} ShowNatValue(n: nat)
    ensures DigitsValue(ShowNat(n)) == n
  {
    var s := ShowNat(n);
    assert s[..|s| - 1] == (if n < 10 then [] else ShowNat(n / 10));
    if n >= 10 {
      ShowNatValue(n / 10);
    }
  }

  /** Parsing the canonical decimal text of any 64-bit value gives the
      value back. */
  lemma ParseShowDecimal(n: int)
    requires InRange(n)
    ensures ParseDecimal(ShowDecimal(n)) == Ok(n)
  {
    var s := ShowDecimal(n);
    if n < 0 {
      ShowNatValue(-n);
      assert s[0] == '-' && s[1..] == ShowNat(-n);
      assert ParseDecimal(s) == Ok(-(DigitsValue(ShowNat(-n)) as int));
    } else {
      ShowNatValue(n);
      assert IsDigit(s[0]);
      assert ParseDecimal(s) == Ok(DigitsValue(ShowNat(n)));
    }
  }
}

=== FILE: parser.dfy ===
/** The rule parser (`Binary.Parse` and the `Eval` entry point). It reads an
    operator, then operands until the group's `)`: nested groups recurse,
    literals become atoms, and identifier fragments and dots are buffered and
    only emitted as a variable when a literal or the closing parenthesis
    arrives. */
module Parser {
  import opened Wrappers
  import opened Tokens
  import opened Ast

  /** An operator spelling, and whether it used up the following token as
      its second character. */
  datatype Resolved = Resolved(op: string, paired: bool)

  /** Operator resolution from the operator token's text and the raw
      character right after it. A one-character token forms a two-character
      operator exactly when the pair is in the table; `=`, `!`, `&` and `|`
      without their partner leave the operator empty; any other text must be
      a table spelling. */
  function ResolveOp(text: string, next: Option<char>): (r: Result<Resolved>)
    ensures r.Err? <==> text !in Operators && text !in {"=", "!", "&", "|"}
    ensures r.Err? ==> r.fault == InvalidMethod
    ensures r.Ok? ==> (r.value.paired <==> |text| == 1 && next.Some? && text + [next.value] in Operators)
    ensures r.Ok? && r.value.paired ==> r.value.op == text + [next.value]
    ensures r.Ok? && !r.value.paired ==> r.value.op == (if text in Operators then text else "")
  {
    PairedSpellings(text, next);
    if text == ">" then
      if next == Some('=') then Ok(Resolved(">=", true)) else Ok(Resolved(">", false))
    else if text == "<" then
      if next == Some('=') then Ok(Resolved("<=", true)) else Ok(Resolved("<", false))
    else if text == "=" then
      if next == Some('=') then Ok(Resolved("==", true)) else Ok(Resolved("", false))
    else if text == "!" then
      if next == Some('=') then Ok(Resolved("!=", true)) else Ok(Resolved("", false))
    else if text == "&" then
      if next == Some('&') then Ok(Resolved("&&", true)) else Ok(Resolved("", false))
    else if text == "|" then
      if next == Some('|') then Ok(Resolved("||", true)) else Ok(Resolved("", false))
    else if text in Operators then
      Ok(Resolved(text, false))
    else
      Err(InvalidMethod)
  }

  /** Extending an operator token that the switch accepts by one character
      gives a table spelling exactly for the six pairs the switch builds. */
  lemma PairedSpellings(text: string, next: Option<char>)
    ensures |text| == 1 && next.Some? && (text in Operators || text in {"=", "!", "&", "|"}) ==>
      (text + [next.value] in Operators <==>
        (text == ">" && next.value == '=') || (text == "<" && next.value == '=') ||
        (text == "=" && next.value == '=') || (text == "!" && next.value == '=') ||
        (text == "&" && next.value == '&') || (text == "|" && next.value == '|'))
  {
    if |text| == 1 && next.Some? && (text in Operators || text in {"=", "!", "&", "|"}) {
      var c, d := text[0], next.value;
      assert text == [c];
      var p := text + [d];
      assert p == [c, d];
      assert p in Operators <==>
        p == ">=" || p == "<=" || p == "==" || p == "!=" || p == "&&" || p == "||" ||
        p == "or" || p == "if" || p == "in";
      assert p == ">=" <==> c == '>' && d == '=';
      assert p == "<=" <==> c == '<' && d == '=';
      assert p == "==" <==> c == '=' && d == '=';
      assert p == "!=" <==> c == '!' && d == '=';
      assert p == "&&" <==> c == '&' && d == '&';
      assert p == "||" <==> c == '|' && d == '|';
      assert p == "or" <==> c == 'o' && d == 'r';
      assert p == "if" <==> c == 'i' && d == 'f';
      assert p == "in" <==> c == 'i' && d == 'n';
      assert c in {'+', '-', '*', '/', '>', '<', '=', '!', '&', '|'};
      assert text == ">" <==> c == '>';
      assert text == "<" <==> c == '<';
      assert text == "=" <==> c == '=';
      assert text == "!" <==> c == '!';
      assert text == "&" <==> c == '&';
      assert text == "|" <==> c == '|';
    }
  }

  /** A parsed group and the tokens after its closing parenthesis. */
  datatype Parsed = Parsed(node: Expr, rest: seq<Lexeme>)

  /** The operands of a group still being read: every one is placed where the
      parser can put it, and the last is not a variable (a pending variable
      is only ever emitted right before a literal or at the group's end). */
  predicate Building(args: seq<Expr>) {
    && (forall i :: 0 <= i < |args| ==> VarPlaced(args, i) && (args[i].Binary? ==> Printable(args[i])))
    && (|args| == 0 || !args[|args| - 1].Var?)
  }

  /** Emits the pending identifier buffer as a variable operand, if any. */
  function Flush(args: seq<Expr>, buf: string): (r: seq<Expr>)
    ensures args <= r
    ensures |r| == |args| + (if buf == "" then 0 else 1)
    ensures buf != "" ==> r[|args|] == Var(buf)
  {
    if buf == "" then args else args + [Var(buf)]
  }

  /** `Binary.Parse`, called once the group's `(` has been consumed. Parsing
      consumes at least the operator token. */
  function ParseGroup(ts: seq<Lexeme>): (r: Result<Parsed>)
    ensures r.Ok? ==> |r.value.rest| < |ts|
    decreases |ts|, 1
  {
    var (lx, afterOp) := Next(ts);
    var resolved :- ResolveOp(TokenText(lx.token), lx.follow);
    var operands := if resolved.paired then Next(afterOp).1 else afterOp;
    ParseOperands(operands, resolved.op, [], "")
  }

  /** The operand loop of `Binary.Parse` with the operands `args` read so far
      and the identifier buffer `buf`. Operands are only ever appended, and
      the node is returned at `)` or, with the buffer dropped, at the end of
      input. */
  function ParseOperands(ts: seq<Lexeme>, op: string, args: seq<Expr>, buf: string): (r: Result<Parsed>)
    ensures r.Ok? ==> |r.value.rest| <= |ts|
    ensures r.Ok? ==> r.value.node.Binary? && r.value.node.op == op && args <= r.value.node.args
    decreases |ts|, 0
  {
    var (lx, rest) := Next(ts);
    match lx.token
    case EOF => Ok(Parsed(Binary(op, args), rest))
    case LParen =>
      var sub :- ParseGroup(rest);
      ParseOperands(sub.rest, op, args + [sub.node], buf)
    case Float(text) => ParseOperands(rest, op, Flush(args, buf) + [Atom(FloatLit, text)], "")
    case Int(text) => ParseOperands(rest, op, Flush(args, buf) + [Atom(IntLit, text)], "")
    case Ident(text) => ParseOperands(rest, op, args, buf + text)
    case Dot => ParseOperands(rest, op, args, buf + ".")
    case RParen => Ok(Parsed(Binary(op, Flush(args, buf)), rest))
    case Other(_) => Err(UnexpectedToken)
  }

  /** A literal may follow the operands read so far, after the pending
      variable if there is one. */
  lemma BuildingLiteral(args: seq<Expr>, buf: string, a: Expr)
    requires Building(args) && a.Atom?
    ensures Building(Flush(args, buf) + [a])
  {
    var args' := Flush(args, buf) + [a];
    forall i | 0 <= i < |args'|
      ensures VarPlaced(args', i) && (args'[i].Binary? ==> Printable(args'[i]))
    {
      if i < |args| {
        assert args'[i] == args[i];
        assert VarPlaced(args, i);
      }
    }
  }

  /** A nested group may follow the operands read so far. */
  lemma BuildingGroup(args: seq<Expr>, g: Expr)
    requires Building(args) && g.Binary? && Printable(g)
    ensures Building(args + [g])
  {
    var args' := args + [g];
    forall i | 0 <= i < |args'|
      ensures VarPlaced(args', i) && (args'[i].Binary? ==> Printable(args'[i]))
    {
      if i < |args| {
        assert args'[i] == args[i];
        assert VarPlaced(args, i);
      }
    }
  }

  /** Closing the group, with or without a pending variable, gives a tree
      of the parser's shape. */
  lemma BuildingClose(op: string, args: seq<Expr>, buf: string)
    requires Building(args) && (op in Operators || op == "")
    ensures Printable(Binary(op, Flush(args, buf)))
  {
    var args' := Flush(args, buf);
    forall i | 0 <= i < |args'|
      ensures VarPlaced(args', i) && (args'[i].Binary? ==> Printable(args'[i]))
    {
      if i < |args| {
        assert args'[i] == args[i];
        assert VarPlaced(args, i);
      }
    }
  }

  /** Every tree `Binary.Parse` returns has the shape `Printable` describes:
      a table operator (or the empty one), variables only before a literal
      or at the end, and nested groups of the same shape. */
  lemma {:induction false} GroupBuilds(ts: seq<Lexeme>)
    ensures ParseGroup(ts).Ok? ==> Printable(ParseGroup(ts).value.node)
    decreases |ts|, 1
  {
    var (lx, afterOp) := Next(ts);
    var resolved := ResolveOp(TokenText(lx.token), lx.follow);
    if resolved.Ok? {
      var operands := if resolved.value.paired then Next(afterOp).1 else afterOp;
      OperandsBuild(operands, resolved.value.op, [], "");
    }
  }

  /** The operand loop keeps `Building` and closes into a `Printable` tree. */
  lemma {:induction false} OperandsBuild(ts: seq<Lexeme>, op: string, args: seq<Expr>, buf: string)
    requires Building(args) && (op in Operators || op == "")
    ensures ParseOperands(ts, op, args, buf).Ok? ==> Printable(ParseOperands(ts, op, args, buf).value.node)
    decreases |ts|, 0
  {
    var (lx, rest) := Next(ts);
    match lx.token
    case EOF => BuildingClose(op, args, "");
    case LParen =>
      GroupBuilds(rest);
      var sub := ParseGroup(rest);
      if sub.Ok? {
        BuildingGroup(args, sub.value.node);
        OperandsBuild(sub.value.rest, op, args + [sub.value.node], buf);
      }
    case Float(text) =>
      BuildingLiteral(args, buf, Atom(FloatLit, text));
      OperandsBuild(rest, op, Flush(args, buf) + [Atom(FloatLit, text)], "");
    case Int(text) =>
      BuildingLiteral(args, buf, Atom(IntLit, text));
      OperandsBuild(rest, op, Flush(args, buf) + [Atom(IntLit, text)], "");
    case Ident(text) => OperandsBuild(rest, op, args, buf + text);
    case Dot => OperandsBuild(rest, op, args, buf + ".");
    case RParen => BuildingClose(op, args, buf);
    case Other(_) =>
  }

  /** `Eval` in eval.go: skip one token, whatever it is, then parse a group;
      tokens after the group are ignored. */
  function Eval(ts: seq<Lexeme>): (r: Result<Expr>)
    ensures r.Ok? ==> Printable(r.value)
  {
    var parsed :- ParseGroup(Next(ts).1);
    GroupBuilds(Next(ts).1);
    Ok(parsed.node)
  }
}

=== FILE: parser_facts.dfy ===
/** Properties of the rule parser: operator resolution, identifier deferral,
    the ways a group ends, and a renderer whose output the parser reads back
    as the tree it came from. */
module ParserFacts {
  import opened Wrappers
  import opened Tokens
  import opened Ast
  import opened Parser

  /** A lexeme followed by a blank in the rule text. */
  function Lx(t: Token): Lexeme {
    Lexeme(t, Some(' '))
  }

  // ---------------------------------------------------------------------
  // Operator resolution

  /** `>` and `<` directly followed by `=` become `>=` / `<=` and use up the
      next token (the `=`); followed by anything else they stand alone. */
  lemma ComparisonSpelling(c: string, follow: Option<char>, x: Lexeme, ts: seq<Lexeme>)
    requires c == ">" || c == "<"
    requires x.token != EOF
    ensures follow == Some('=') ==>
      ParseGroup([Lexeme(Other(c), follow), x] + ts) == ParseOperands(ts, c + "=", [], "")
    ensures follow != Some('=') ==>
      ParseGroup([Lexeme(Other(c), follow), x] + ts) == ParseOperands([x] + ts, c, [], "")
  {
    PairedSpellings(c, follow);
    assert ([Lexeme(Other(c), follow), x] + ts)[1..] == [x] + ts;
    assert ([x] + ts)[1..] == ts;
  }

  /** `=`, `!`, `&` and `|` without their partner character do not stop the
      parse: the group is read with an empty operator. */
  lemma LoneSymbolLeavesOperatorEmpty(c: string, follow: Option<char>, ts: seq<Lexeme>)
    requires c in {"=", "!", "&", "|"}
    requires follow != Some(if c == "&" then '&' else if c == "|" then '|' else '=')
    ensures ParseGroup([Lexeme(Other(c), follow)] + ts) == ParseOperands(ts, "", [], "")
  {
    PairedSpellings(c, follow);
    assert ([Lexeme(Other(c), follow)] + ts)[1..] == ts;
  }

  /** An operator token outside the table that is not one of the four
      pair-starting symbols faults. */
  lemma UnknownOperatorFaults(lx: Lexeme, ts: seq<Lexeme>)
    requires TokenText(lx.token) !in Operators && TokenText(lx.token) !in {"=", "!", "&", "|"}
    ensures ParseGroup([lx] + ts) == Err(InvalidMethod)
  {
  }

  // ---------------------------------------------------------------------
  // Identifier deferral

  /** Lexemes that only extend the identifier buffer. */
  predicate NameLike(ls: seq<Lexeme>) {
    forall i :: 0 <= i < |ls| ==> ls[i].token.Ident? || ls[i].token.Dot?
  }

  /** The text identifier fragments and dots add to the buffer. */
  function NameText(ls: seq<Lexeme>): string
    requires NameLike(ls)
  {
    if ls == [] then "" else TokenText(ls[0].token) + NameText(ls[1..])
  }

  /** `NameText` of a fragment in front of a name. */
  lemma NameTextCons(x: Lexeme, r: seq<Lexeme>)
    requires (x.token.Ident? || x.token.Dot?) && NameLike(r)
    ensures NameLike([x] + r)
    ensures NameText([x] + r) == TokenText(x.token) + NameText(r)
  {
    assert ([x] + r)[1..] == r;
  }

  /** Identifier fragments and dots never emit an operand: they only append
      their text to the buffer, so adjacent identifiers run together. */
  lemma {:induction false} IdentifiersAccumulate(ls: seq<Lexeme>, ts: seq<Lexeme>, op: string, args: seq<Expr>, buf: string)
    requires NameLike(ls)
    ensures ParseOperands(ls + ts, op, args, buf) == ParseOperands(ts, op, args, buf + NameText(ls))
    decreases |ls|
  {
    if ls == [] {
      assert ls + ts == ts;
      assert buf + NameText(ls) == buf;
    } else {
      assert (ls + ts)[0] == ls[0];
      assert (ls + ts)[1..] == ls[1..] + ts;
      var buf' := buf + TokenText(ls[0].token);
      assert ParseOperands(ls + ts, op, args, buf) == ParseOperands(ls[1..] + ts, op, args, buf');
      IdentifiersAccumulate(ls[1..], ts, op, args, buf');
      assert buf' + NameText(ls[1..]) == buf + NameText(ls);
    }
  }

  /** Two identifiers written next to each other, then a literal, give one
      variable whose name is their concatenation, placed before the literal. */
  lemma AdjacentIdentifiersMerge(a: string, b: string, t: string, ts: seq<Lexeme>, op: string, args: seq<Expr>)
    requires a + b != ""
    ensures ParseOperands([Lx(Ident(a)), Lx(Ident(b)), Lx(Int(t))] + ts, op, args, "")
         == ParseOperands(ts, op, args + [Var(a + b), Atom(IntLit, t)], "")
  {
    var ls := [Lx(Ident(a)), Lx(Ident(b))];
    assert [Lx(Ident(a)), Lx(Ident(b)), Lx(Int(t))] + ts == ls + ([Lx(Int(t))] + ts);
    assert NameText(ls[1..]) == b + NameText(ls[2..]);
    IdentifiersAccumulate(ls, [Lx(Int(t))] + ts, op, args, "");
    assert ls[2..] == [];
    assert "" + NameText(ls) == a + b;
    assert ([Lx(Int(t))] + ts)[1..] == ts;
    assert args + [Var(a + b)] + [Atom(IntLit, t)] == args + [Var(a + b), Atom(IntLit, t)];
  }

  /** A nested group does not flush a pending identifier: the group becomes
      the next operand and the variable only follows it, before the literal
      that finally flushes it. */
  lemma NestedGroupOvertakesPendingVar(x: string, ts: seq<Lexeme>, g: Expr, t: string, rest: seq<Lexeme>, op: string, args: seq<Expr>)
    requires x != ""
    requires ParseGroup(ts) == Ok(Parsed(g, [Lx(Int(t))] + rest))
    ensures ParseOperands([Lx(Ident(x)), Lx(LParen)] + ts, op, args, "")
         == ParseOperands(rest, op, args + [g, Var(x), Atom(IntLit, t)], "")
  {
    var s := [Lx(Ident(x)), Lx(LParen)] + ts;
    assert s[1..] == [Lx(LParen)] + ts;
    assert ([Lx(LParen)] + ts)[1..] == ts;
    assert ([Lx(Int(t))] + rest)[1..] == rest;
    assert "" + x == x;
    assert ParseOperands(s, op, args, "") == ParseOperands([Lx(LParen)] + ts, op, args, x);
    assert ParseOperands([Lx(LParen)] + ts, op, args, x) == ParseOperands([Lx(Int(t))] + rest, op, args + [g], x);
    assert args + [g] + [Var(x)] + [Atom(IntLit, t)] == args + [g, Var(x), Atom(IntLit, t)];
  }

  // ---------------------------------------------------------------------
  // How a group ends

  /** `)` emits a pending identifier as the last operand and ends the group;
      the tokens after it are left for the caller. */
  lemma CloseFlushesPendingVar(f: Option<char>, ts: seq<Lexeme>, op: string, args: seq<Expr>, buf: string)
    ensures ParseOperands([Lexeme(RParen, f)] + ts, op, args, buf)
         == Ok(Parsed(Binary(op, if buf == "" then args else args + [Var(buf)]), ts))
  {
    assert ([Lexeme(RParen, f)] + ts)[1..] == ts;
  }

  /** Running out of input ends the group without error; identifier text
      still pending at that point is lost. */
  lemma EndOfInputDropsPendingVar(ls: seq<Lexeme>, op: string, args: seq<Expr>, buf: string)
    requires NameLike(ls)
    ensures ParseOperands(ls, op, args, buf) == Ok(Parsed(Binary(op, args), []))
  {
    IdentifiersAccumulate(ls, [], op, args, buf);
    assert ls + [] == ls;
  }

  /** A token the operand loop has no case for faults. */
  lemma StrayTokenFaults(s: string, f: Option<char>, ts: seq<Lexeme>, op: string, args: seq<Expr>, buf: string)
    ensures ParseOperands([Lexeme(Other(s), f)] + ts, op, args, buf) == Err(UnexpectedToken)
  {
  }

  /** `Eval` discards exactly one token, without looking at it, and returns
      the group parsed from the rest. */
  lemma EvalSkipsOneToken(lx: Lexeme, ts: seq<Lexeme>)
    requires lx.token != EOF
    ensures Eval([lx] + ts) == (match ParseGroup(ts) case Ok(p) => Ok(p.node) case Err(f) => Err(f))
  {
    assert ([lx] + ts)[1..] == ts;
  }

  // ---------------------------------------------------------------------
  // Rendering, and reading a rendering back

  /** Length of the leading run of characters other than `.`. */
  function RunLength(n: string): (k: nat)
    ensures k <= |n|
    ensures forall j :: 0 <= j < k ==> n[j] != '.'
    ensures k < |n| ==> n[k] == '.'
    ensures |n| > 0 && n[0] != '.' ==> k > 0
  {
    if n == [] || n[0] == '.' then 0 else 1 + RunLength(n[1..])
  }

  /** The lexemes a dotted name scans to: maximal identifier fragments and
      the dots between them. */
  function NameLexemes(n: string): (ls: seq<Lexeme>)
    ensures NameLike(ls)
    decreases |n|
  {
    if n == [] then []
    else if n[0] == '.' then [Lx(Dot)] + NameLexemes(n[1..])
    else
      var k := RunLength(n);
      [Lx(Ident(n[..k]))] + NameLexemes(n[k..])
  }

  lemma {:induction false} NameLexemesSpell(n: string)
    ensures NameText(NameLexemes(n)) == n
    decreases |n|
  {
    if n == [] {
    } else if n[0] == '.' {
      NameLexemesSpell(n[1..]);
      DotSpells(n);
    } else {
      NameLexemesSpell(n[RunLength(n)..]);
      FragmentSpells(n);
    }
  }

  /** A leading dot spells itself in front of the rest of the name. */
  lemma DotSpells(n: string)
    requires n != [] && n[0] == '.'
    requires NameText(NameLexemes(n[1..])) == n[1..]
    ensures NameText(NameLexemes(n)) == n
  {
    assert NameLexemes(n) == [Lx(Dot)] + NameLexemes(n[1..]);
    NameTextCons(Lx(Dot), NameLexemes(n[1..]));
    assert n == "." + n[1..];
  }

  /** A leading identifier fragment spells itself in front of the rest. */
  lemma FragmentSpells(n: string)
    requires n != [] && n[0] != '.'
    requires NameText(NameLexemes(n[RunLength(n)..])) == n[RunLength(n)..]
    ensures NameText(NameLexemes(n)) == n
  {
    var k := RunLength(n);
    FragmentLexemes(n);
    NameTextCons(Lx(Ident(n[..k])), NameLexemes(n[k..]));
    SplitAt(n, k);
  }

  lemma FragmentLexemes(n: string)
    requires n != [] && n[0] != '.'
    ensures NameLexemes(n) == [Lx(Ident(n[..RunLength(n)]))] + NameLexemes(n[RunLength(n)..])
  {
  }

  lemma SplitAt(n: string, k: nat)
    requires k <= |n|
    ensures n[..k] + n[k..] == n
  {
  }

  /** The lexemes of an operator spelling as the scanner yields them: a word
      operator is one identifier, a two-character symbol is two one-character
      tokens the first of which is followed by the second, and the empty
      operator is written as a lone `=`. */
  function OpLexemes(op: string): seq<Lexeme> {
    if op == "" then [Lx(Other("="))]
    else if op in {"and", "or", "if", "in"} then [Lx(Ident(op))]
    else if |op| == 2 then [Lexeme(Other([op[0]]), Some(op[1])), Lx(Other([op[1]]))]
    else [Lx(Other(op))]
  }

  /** The lexemes of a group after its `(`: operator, operands, `)`. */
  function Render(e: Expr): seq<Lexeme>
    requires e.Binary?
    decreases e, 1
  {
    OpLexemes(e.op) + RenderFrom(e, 0) + [Lx(RParen)]
  }

  /** The lexemes of the operands `e.args[i..]`. */
  function RenderFrom(e: Expr, i: nat): seq<Lexeme>
    requires e.Binary? && i <= |e.args|
    decreases e, 0, |e.args| - i
  {
    if i == |e.args| then []
    else
      var a := e.args[i];
      var here := match a
        case Binary(_, _) => [Lx(LParen)] + Render(a)
        case Atom(k, t) => [Lx(if k == IntLit then Int(t) else Float(t))]
        case Var(n) => NameLexemes(n);
      here + RenderFrom(e, i + 1)
  }

  /** The operator lexemes resolve back to the operator. */
  lemma OpLexemesResolve(op: string, ts: seq<Lexeme>)
    requires op in Operators || op == ""
    ensures ParseGroup(OpLexemes(op) + ts) == ParseOperands(ts, op, [], "")
  {
    var ls := OpLexemes(op);
    assert (ls + ts)[0] == ls[0];
    if op == "" {
      PairedSpellings("=", Some(' '));
      assert (ls + ts)[1..] == ts;
    } else if op in {"and", "or", "if", "in"} {
      assert (ls + ts)[1..] == ts;
    } else if |op| == 2 {
      assert op in {">=", "<=", "==", "!=", "&&", "||"};
      assert [op[0]] + [op[1]] == op;
      PairedSpellings([op[0]], Some(op[1]));
      assert (ls + ts)[1..] == [ls[1]] + ts;
      assert ([ls[1]] + ts)[1..] == ts;
    } else {
      assert op in {"+", "-", "*", "/", ">", "<"};
      PairedSpellings(op, Some(' '));
      assert (ls + ts)[1..] == ts;
    }
  }

  /** Every tree of the shape the parser builds is read back from its
      rendering, whatever follows it. */
  lemma {:induction false} RenderParses(e: Expr, rest: seq<Lexeme>)
    requires Printable(e)
    ensures ParseGroup(Render(e) + rest) == Ok(Parsed(e, rest))
    decreases e, 1
  {
    var body := Tail(e, 0, rest);
    assert Render(e) + rest == OpLexemes(e.op) + body;
    OpLexemesResolve(e.op, body);
    RenderFromParses(e, 0, rest);
    assert e.args[..0] == [];
  }

  /** The lexemes of the operands from `i` on, then `)` and `rest`. */
  function Tail(e: Expr, i: nat, rest: seq<Lexeme>): seq<Lexeme>
    requires e.Binary? && i <= |e.args|
  {
    RenderFrom(e, i) + [Lx(RParen)] + rest
  }

  function LitLexeme(a: Expr): Lexeme
    requires a.Atom?
  {
    Lx(if a.kind == IntLit then Int(a.text) else Float(a.text))
  }

  /** Reading a rendered literal operand. */
  lemma AtomStep(e: Expr, i: nat, rest: seq<Lexeme>)
    requires e.Binary? && i < |e.args| && e.args[i].Atom?
    ensures ParseOperands(Tail(e, i, rest), e.op, e.args[..i], "")
         == ParseOperands(Tail(e, i + 1, rest), e.op, e.args[..i + 1], "")
  {
    var later := Tail(e, i + 1, rest);
    assert Tail(e, i, rest) == [LitLexeme(e.args[i])] + later;
    assert e.args[..i] + [e.args[i]] == e.args[..i + 1];
    LiteralRead([LitLexeme(e.args[i])] + later, e.args[i], later, e.op, e.args[..i]);
  }

  /** A literal with nothing buffered is appended as the next operand. */
  lemma LiteralRead(ts: seq<Lexeme>, a: Expr, later: seq<Lexeme>, op: string, args: seq<Expr>)
    requires a.Atom? && ts == [LitLexeme(a)] + later
    ensures ParseOperands(ts, op, args, "") == ParseOperands(later, op, args + [a], "")
  {
    assert ts[1..] == later;
    assert Flush(args, "") == args;
  }

  /** The rendering of a nested operand starts with its `(`. */
  lemma TailOfGroup(e: Expr, i: nat, rest: seq<Lexeme>)
    requires e.Binary? && i < |e.args| && e.args[i].Binary?
    ensures Tail(e, i, rest) == [Lx(LParen)] + (Render(e.args[i]) + Tail(e, i + 1, rest))
  {
  }

  /** `(` hands the tokens to a nested parse and appends its node. */
  lemma OpenStep(ts: seq<Lexeme>, inner: seq<Lexeme>, op: string, args: seq<Expr>, buf: string, g: Expr, after: seq<Lexeme>, args': seq<Expr>)
    requires ts == [Lx(LParen)] + inner && args' == args + [g]
    requires ParseGroup(inner) == Ok(Parsed(g, after))
    ensures ParseOperands(ts, op, args, buf) == ParseOperands(after, op, args', buf)
  {
    assert ts[1..] == inner;
  }

  /** Reading a rendered nested group, given that the group reads back. */
  lemma GroupStep(e: Expr, i: nat, rest: seq<Lexeme>)
    requires e.Binary? && i < |e.args| && e.args[i].Binary?
    requires ParseGroup(Render(e.args[i]) + Tail(e, i + 1, rest)) == Ok(Parsed(e.args[i], Tail(e, i + 1, rest)))
    ensures ParseOperands(Tail(e, i, rest), e.op, e.args[..i], "")
         == ParseOperands(Tail(e, i + 1, rest), e.op, e.args[..i + 1], "")
  {
    var a := e.args[i];
    var later := Tail(e, i + 1, rest);
    var before := e.args[..i];
    calc {
      ParseOperands(Tail(e, i, rest), e.op, before, "");
      { TailOfGroup(e, i, rest);
        assert before + [a] == e.args[..i + 1];
        OpenStep(Tail(e, i, rest), Render(a) + later, e.op, before, "", a, later, e.args[..i + 1]); }
      ParseOperands(later, e.op, e.args[..i + 1], "");
    }
  }

  /** Reading a rendered variable only fills the buffer with its name. */
  lemma VarBuffered(e: Expr, i: nat, rest: seq<Lexeme>)
    requires e.Binary? && i < |e.args| && e.args[i].Var?
    ensures ParseOperands(Tail(e, i, rest), e.op, e.args[..i], "")
         == ParseOperands(Tail(e, i + 1, rest), e.op, e.args[..i], e.args[i].name)
  {
    var n := e.args[i].name;
    var later := Tail(e, i + 1, rest);
    assert Tail(e, i, rest) == NameLexemes(n) + later;
    IdentifiersAccumulate(NameLexemes(n), later, e.op, e.args[..i], "");
    NameLexemesSpell(n);
    assert "" + n == n;
  }

  /** A buffered variable is emitted by the `)` that ends the group or by the
      literal right after it. */
  lemma VarStep(e: Expr, i: nat, rest: seq<Lexeme>)
    requires e.Binary? && i < |e.args| && e.args[i].Var? && VarPlaced(e.args, i)
    ensures i + 1 == |e.args| ==>
      ParseOperands(Tail(e, i + 1, rest), e.op, e.args[..i], e.args[i].name) == Ok(Parsed(e, rest))
    ensures i + 1 < |e.args| ==>
      ParseOperands(Tail(e, i + 1, rest), e.op, e.args[..i], e.args[i].name)
        == ParseOperands(Tail(e, i + 2, rest), e.op, e.args[..i + 2], "")
  {
    var args := e.args;
    var n := args[i].name;
    var later := Tail(e, i + 1, rest);
    assert args[..i] + [Var(n)] == args[..i + 1];
    if i + 1 == |args| {
      assert later == [Lx(RParen)] + rest;
      assert later[1..] == rest;
      assert args[..i + 1] == args;
    } else {
      var b := args[i + 1];
      var after := Tail(e, i + 2, rest);
      assert later == [LitLexeme(b)] + after;
      assert ([LitLexeme(b)] + after)[1..] == after;
      assert args[..i + 1] + [b] == args[..i + 2];
    }
  }

  /** Reading the final `)` of a rendering. */
  lemma CloseStep(e: Expr, rest: seq<Lexeme>)
    requires e.Binary?
    ensures ParseOperands(Tail(e, |e.args|, rest), e.op, e.args[..|e.args|], "") == Ok(Parsed(e, rest))
  {
    assert Tail(e, |e.args|, rest) == [Lx(RParen)] + rest;
    assert ([Lx(RParen)] + rest)[1..] == rest;
    assert e.args[..|e.args|] == e.args;
  }

  /** What `Printable` says about one operand. */
  lemma PrintableOperand(e: Expr, i: nat)
    requires Printable(e) && i < |e.args|
    ensures VarPlaced(e.args, i)
    ensures e.args[i].Binary? ==> Printable(e.args[i])
  {
  }

  lemma {:induction false} RenderFromParses(e: Expr, i: nat, rest: seq<Lexeme>)
    requires Printable(e) && i <= |e.args|
    requires i > 0 ==> !e.args[i - 1].Var?
    ensures ParseOperands(Tail(e, i, rest), e.op, e.args[..i], "") == Ok(Parsed(e, rest))
    decreases e, 0, |e.args| - i
  {
    if i == |e.args| {
      CloseStep(e, rest);
    } else {
      var a := e.args[i];
      PrintableOperand(e, i);
      if a.Atom? {
        AtomStep(e, i, rest);
        RenderFromParses(e, i + 1, rest);
      } else if a.Binary? {
        RenderParses(a, Tail(e, i + 1, rest));
        GroupStep(e, i, rest);
        RenderFromParses(e, i + 1, rest);
      } else {
        VarBuffered(e, i, rest);
        VarStep(e, i, rest);
        if i + 1 < |e.args| {
          RenderFromParses(e, i + 2, rest);
        }
      }
    }
  }

  /** The whole entry point: after any first token, a rendered tree is parsed
      back to itself. Together with the postcondition of `Eval` this says that
      the trees `Eval` can return are exactly the `Printable` ones. */
  lemma EvalReadsRendering(lx: Lexeme, e: Expr)
    requires lx.token != EOF && Printable(e)
    ensures Eval([lx] + Render(e)) == Ok(e)
  {
    EvalSkipsOneToken(lx, Render(e));
    RenderParses(e, []);
    assert Render(e) + [] == Render(e);
  }
}

=== FILE: wrappers.dfy ===
/** Failure-compatible wrappers shared by the parser, the evaluator and the
    environment flattener. Every Go `panic` of the library becomes a `Fault`
    carried by `Err`, so a caller can recover from it. */
module Wrappers {

  /** An optional value; `None` stands for "nothing there" (end of input for
      a peeked character, a literal that does not parse). */
  datatype Option<+T> = None | Some(value: T)

  /** The kinds of run-time fault the library raises with `panic`. */
  datatype Fault =
    | InvalidMethod      // an operator spelling a projection has no case for
    | UnexpectedToken    // a token the parser loop has no case for
    | IndexOutOfRange    // Args[i] read past the end of the operand list
    | InvalidLiteral     // strconv could not parse a literal's text
    | InvalidEnv         // missing variable, or a value of an unsupported kind
    | DivideByZero       // Go's integer division by zero
    | FloatOverflow      // float-to-integer conversion outside the target range
    | NilDereference     // reflect on the element of a nil pointer

  /** The result of a computation that may fault. */
  datatype Result<+T> = Ok(value: T) | Err(fault: Fault) {

    predicate IsFailure() {
      Err?
    }

    function PropagateFailure<U>(): Result<U>
      requires Err?
    {
      Err(fault)
    }

    function Extract(): T
      requires Ok?
    {
      value
    }
  }
}
